=== FILE: README.md ===
# Route session and route refresh core of the Mapbox Navigation SDK

This project models, in Dafny, the sequential logic at the centre of the
navigation core:

- **`MapboxDirectionsSession`** holds the current list of routes, the options
  of the first route set, and the registered `RoutesObserver`s. Every
  operation is a pure function from the session to the next session plus the
  trace of effects it performs, in order:
  - `router.cancel()` and `router.getRoute(options)` calls;
  - `onRoutesChanged` notifications;
  - `onRoutesReady`, `onRoutesRequestFailure` and `onRoutesRequestCanceled`
    callbacks.

  The router is a port. `getRoute` hands it a `RouterCallback` value, and its
  answer (routes, failure or cancellation) is fed back as an event.
  `buildAdjustedRouteOptions` rebuilds the coordinates and bearings for a
  reroute from the current leg.
- **`RouteRefreshApi`** covers the refresh request and call parameters. The
  route index string is parsed with `toInt()`. The API merges a partial,
  leg-indexed annotation response into the original route. The
  congestion-relabelling `counter` (a Kotlin `Int` with 32-bit wrap-around)
  is threaded through the merge as explicit state.
- **`RouteRefreshController`** builds a request from the trip session and
  runs the `refreshRoute` loops on discrete millisecond time. The body is:
  delay, build a request, maybe call `refresh`, maybe invoke the callback.
  - The trip session is a function `trip(t)`.
  - The network is a function `respond(t)(call)`.
  - Each wake is recorded as a cycle: skipped, or called with its request and
    outcome.
- **`MapboxTimer`** is the same `while (isActive) { delay(d); body() }` loop
  without a body of its own. Each job records the times at which its lambda
  was invoked.

Both loops read their interval when each delay starts. `Loops` holds the
schedule they share: the wakes at `next`, `next + d`, … up to a time bound.
`Jvm` holds the JVM integer behaviour the code relies on:
- `Int` wrap-around;
- Kotlin's truncating `%`;
- the saturating `TimeUnit` conversions;
- `Integer.parseInt`.

Two helpers have no contract of their own and are specified by lemmas:
- `MapboxTimer.RunJob`, the timer loop run up to a time bound, is specified by
  `MapboxTimer.InvocationCount` and `MapboxTimer.RunJobSplit`;
- `Jvm.IncrementBy`, `counter++` applied `k` times, is specified by
  `Jvm.IncrementByStep` and `Jvm.IncrementByIsIterated`.

The unit tests' timelines for the controller and the timer are followed
through the model as lemmas, in `route_refresh_controller_scenarios.dfy`
and `mapbox_timer_scenarios.dfy`.

Behaviour of the code worth noting:
- **Adjusted options.** For origin, two waypoints and a destination on leg
  index 1, `drop(index + 1)` keeps the second waypoint and the destination
  (`DirectionsSession.AdjustedOptionsExample`). Without original bearings,
  the nulls pad the bearings list to the original coordinate count, not to
  the new one.
- **Congestion labels.** They are escalated or de-escalated by the parity of
  the call counter; they are never passed through unchanged.
- **Observers.** Notifications go to every observer in turn; nothing
  isolates one observer from another.
- **Stale refreshes.** A refresh result is handed to the callback even when
  the route has changed meanwhile.
- **Interval change.** In the interval-change timeline, the calls fall at
  1000, 2000 and 12000 ms. The delay that is running when the interval
  changes keeps its one-second length.
- **Default interval.** `intervalSeconds` defaults to
  `SECONDS.toMillis(30)` = 30000. The loop converts it to milliseconds a
  second time, so each default delay lasts 30,000 seconds. This is recorded
  as the code has it (`RouteRefreshController.DefaultDelay`).

## Model

Paths are relative to the repository root.

| member | source | states |
|---|---|---|
| DirectionsSession.NotifyAll | libnavigation-core/src/main/java/com/mapbox/navigation/core/directions/session/MapboxDirectionsSession.kt:30 | every registered observer is told exactly once, in registration order, with the new list |
| DirectionsSession.SetRoutes | libnavigation-core/src/main/java/com/mapbox/navigation/core/directions/session/MapboxDirectionsSession.kt:20-31 | the router is cancelled first on every assignment; empty onto empty changes nothing and notifies nobody; otherwise the list is stored and every observer hears of it in order; stored options become the first new route's options only for a non-empty list |
| DirectionsSession.Cancel | libnavigation-core/src/main/java/com/mapbox/navigation/core/directions/session/MapboxDirectionsSession.kt:35-37 | cancelling touches only the router: the session is unchanged |
| DirectionsSession.ShutDownSession | libnavigation-core/src/main/java/com/mapbox/navigation/core/directions/session/MapboxDirectionsSession.kt:147-149 | shutting down cancels the router and leaves the session as it was |
| DirectionsSession.RequestRoutes | libnavigation-core/src/main/java/com/mapbox/navigation/core/directions/session/MapboxDirectionsSession.kt:39-44 | the routes are cleared first (observers of a non-empty session see the empty list), and only then is the router asked, with the requested options |
| DirectionsSession.OnRouterOutcome | libnavigation-core/src/main/java/com/mapbox/navigation/core/directions/session/MapboxDirectionsSession.kt:44-129 | an answer goes to the callback of the request it answers: only routes answering `requestRoutes` change the session, and they are adopted as by the setter: the router is cancelled, every observer is told in order, the first route's options are stored, and the session ends with exactly those routes and the same observers; the caller hears last; a faster-route answer reaches its caller alone; a failure or cancellation is reported with the requested options for `requestRoutes`, and with the stored options, or not at all, for `requestFasterRoute` |
| DirectionsSession.OnRoutesRequestOutcome | libnavigation-core/src/main/java/com/mapbox/navigation/core/directions/session/MapboxDirectionsSession.kt:44-60 | a routes response is adopted as by the setter and then reported to the caller; failure and cancellation keep the session and report the requested options |
| DirectionsSession.OnFasterRouteOutcome | libnavigation-core/src/main/java/com/mapbox/navigation/core/directions/session/MapboxDirectionsSession.kt:113-129 | a faster-route answer never changes the session; failure and cancellation report the session's stored options, or nothing when there are none |
| DirectionsSession.RequestFasterRoute | libnavigation-core/src/main/java/com/mapbox/navigation/core/directions/session/MapboxDirectionsSession.kt:105-113 | without current routes the caller hears of a cancellation with the adjusted options and the router is never asked; otherwise only the router is asked |
| DirectionsSession.RegisterRoutesObserver | libnavigation-core/src/main/java/com/mapbox/navigation/core/directions/session/MapboxDirectionsSession.kt:132-137 | the observer is appended, and the current routes are replayed to it exactly when there are any |
| DirectionsSession.IndexOf | libnavigation-core/src/main/java/com/mapbox/navigation/core/directions/session/MapboxDirectionsSession.kt:140 | the position `remove` acts on holds the observer, and no earlier position does |
| DirectionsSession.RemoveFirst | libnavigation-core/src/main/java/com/mapbox/navigation/core/directions/session/MapboxDirectionsSession.kt:140 | `remove` cuts out the first occurrence of a registered observer, keeping the others in order, and changes nothing when it is not registered |
| DirectionsSession.RemoveFirstFromMiddle | libnavigation-core/src/main/java/com/mapbox/navigation/core/directions/session/MapboxDirectionsSession.kt:140 | unregistering an observer registered once, anywhere in the list, leaves the observers before and after it in their order |
| DirectionsSession.UnregisterRoutesObserver | libnavigation-core/src/main/java/com/mapbox/navigation/core/directions/session/MapboxDirectionsSession.kt:139-141 | one registration is removed; routes and options are kept and nothing is notified |
| DirectionsSession.UnregisterAllRoutesObservers | libnavigation-core/src/main/java/com/mapbox/navigation/core/directions/session/MapboxDirectionsSession.kt:143-145 | every observer is forgotten, nothing else changes, nothing is notified |
| DirectionsSession.Drop | libnavigation-core/src/main/java/com/mapbox/navigation/core/directions/session/MapboxDirectionsSession.kt:72 | Kotlin's `drop` keeps the suffix after the first `m` elements and is empty when `m` exceeds the length |
| DirectionsSession.PadWithNulls | libnavigation-core/src/main/java/com/mapbox/navigation/core/directions/session/MapboxDirectionsSession.kt:88-90 | the padded list keeps its prefix, reaches the target size, and every added entry is null |
| DirectionsSession.BuildAdjustedRouteOptions | libnavigation-core/src/main/java/com/mapbox/navigation/core/directions/session/MapboxDirectionsSession.kt:63-103 | without a leg index the options are returned as they are; with leg index `k`, the coordinates are the position followed by those after the first `k + 1`, the first bearing is the heading with the origin tolerance (90 by default), then the original bearings `k + 1 .. n` or nulls; `subList` fails exactly when `k + 1 <= n <= size` does not hold; all other fields are kept |
| DirectionsSession.ReassignmentNotifiesNewRoutes | libnavigation-core/src/main/java/com/mapbox/navigation/core/directions/session/MapboxDirectionsSession.kt:26-30 | two assignments in a row, not both empty, leave the second list stored and every observer told of it |
| DirectionsSession.ClearingTwiceNotifiesOnce | libnavigation-core/src/main/java/com/mapbox/navigation/core/directions/session/MapboxDirectionsSession.kt:23-25 | a second clearing only cancels the router: observers hear of a clearing once |
| DirectionsSession.RemoveFirstOfAppended | libnavigation-core/src/main/java/com/mapbox/navigation/core/directions/session/MapboxDirectionsSession.kt:133 | removing an observer that was appended last, and registered nowhere else, gives back the list before the append |
| DirectionsSession.RegisterThenUnregister | libnavigation-core/src/main/java/com/mapbox/navigation/core/directions/session/MapboxDirectionsSession.kt:132-141 | unregistering a newly registered observer restores the session exactly |
| DirectionsSession.RequestRoutesThenResponse | libnavigation-core/src/main/java/com/mapbox/navigation/core/directions/session/MapboxDirectionsSession.kt:43-48 | a request answered with routes ends with those routes stored, the observers told in order, and the caller's `onRoutesReady` last |
| DirectionsSession.RequestRoutesThenNoRoutes | libnavigation-core/src/main/java/com/mapbox/navigation/core/directions/session/MapboxDirectionsSession.kt:51-58 | a request that fails or is cancelled leaves no routes and reports the options that were requested |
| DirectionsSession.FasterRouteNeverCommits | libnavigation-core/src/main/java/com/mapbox/navigation/core/directions/session/MapboxDirectionsSession.kt:109-129 | whatever the router answers, a faster-route request never changes the session, and it reaches the router exactly when routes exist |
| DirectionsSession.AdjustedBearingsStayParallel | libnavigation-core/src/main/java/com/mapbox/navigation/core/directions/session/MapboxDirectionsSession.kt:70-93 | with one bearing per coordinate in the original, the adjusted options have one bearing per remaining coordinate and `n - k` coordinates |
| DirectionsSession.AdjustedPaddingUsesOriginalCount | libnavigation-core/src/main/java/com/mapbox/navigation/core/directions/session/MapboxDirectionsSession.kt:87-91 | without original bearings, the bearings list is longer than the new coordinate list by the leg index |
| DirectionsSession.AdjustedOptionsExample | libnavigation-core/src/main/java/com/mapbox/navigation/core/directions/session/MapboxDirectionsSession.kt:68-93 | origin, two waypoints and destination on leg 1 give the position, the second waypoint and the destination, with first bearing (45, 90) and three nulls |
| RouteRefreshApi.Escalate | libnavigation-core/src/main/java/com/mapbox/navigation/core/routerefresh/RouteRefreshApi.kt:75-82 | the even-counter map yields only "moderate" or "heavy", and "moderate" exactly for "low" |
| RouteRefreshApi.Deescalate | libnavigation-core/src/main/java/com/mapbox/navigation/core/routerefresh/RouteRefreshApi.kt:84-90 | the odd-counter map yields only "low" or "moderate", and "moderate" exactly for "heavy" |
| RouteRefreshApi.TransformedAnnotation | libnavigation-core/src/main/java/com/mapbox/navigation/core/routerefresh/RouteRefreshApi.kt:73-94 | the counter advances by one (with wrap-around); a null annotation or congestion list stays null; congestion keeps its length and order, each value relabelled by the counter's previous parity; other annotation fields are kept |
| RouteRefreshApi.SpliceFrom | libnavigation-core/src/main/java/com/mapbox/navigation/core/routerefresh/RouteRefreshApi.kt:59-65 | from position `i` on, leg `j` takes response entry `j - legIndex` at the counter value reached by then; earlier legs are kept; the loop fails exactly when the response runs out before the legs |
| RouteRefreshApi.MapToDirectionsRoute | libnavigation-core/src/main/java/com/mapbox/navigation/core/routerefresh/RouteRefreshApi.kt:54-69 | the merged route keeps every field but the legs, keeps null legs null, keeps the leg count and the legs before `legIndex`, gives leg `j >= legIndex` the transformed annotation of entry `j - legIndex`, moves the counter once per replaced leg, and leaves everything as it was when the response has no legs |
| RouteRefreshApi.BuildCall | libnavigation-core/src/main/java/com/mapbox/navigation/core/routerefresh/RouteRefreshApi.kt:28-35 | the call carries the request's token, UUID and leg index; the route index is passed exactly when the route has one, parsed by `toInt()`, and an unparsable one makes `refresh` throw |
| RouteRefreshApi.Refresh | libnavigation-core/src/main/java/com/mapbox/navigation/core/routerefresh/RouteRefreshApi.kt:24-52 | a failed call, or a response without a body or route, throws and leaves the counter alone; otherwise the outcome and counter are the merge's, a returned route is exactly the merged route, and it differs from the original only in its legs |
| RouteRefreshApi.RefreshOutcomeKinds | libnavigation-core/src/main/java/com/mapbox/navigation/core/routerefresh/RouteRefreshApi.kt:37-51 | by the answer alone: the call never returns exactly when the answer has too few legs, returns a route exactly when any other route came back, and throws in every other case |
| RouteRefreshApi.RelabelBounds | libnavigation-core/src/main/java/com/mapbox/navigation/core/routerefresh/RouteRefreshApi.kt:74-91 | escalated labels lie in {moderate, heavy}, de-escalated ones in {low, moderate} |
| RouteRefreshApi.MergeAlternatesPolicy | libnavigation-core/src/main/java/com/mapbox/navigation/core/routerefresh/RouteRefreshApi.kt:59-74 | consecutive replaced legs are relabelled at counter values of opposite parity, wrap-around included; the first follows the counter's parity before the merge |
| RouteRefreshApi.RefreshChangesOnlyAnnotations | libnavigation-core/src/main/java/com/mapbox/navigation/core/routerefresh/RouteRefreshApi.kt:57-68 | a successful refresh keeps the leg count, the legs before the current one, and every non-annotation field of every leg |
| RouteRefreshApi.MergeExample | libnavigation-core/src/main/java/com/mapbox/navigation/core/routerefresh/RouteRefreshApi.kt:54-69 | three legs, leg index 1, two entries: leg 0 untouched, legs 1 and 2 take entries 0 and 1, escalated then de-escalated from counter 0 |
| Jvm.WrapInt | libnavigation-core/src/main/java/com/mapbox/navigation/core/routerefresh/RouteRefreshApi.kt:71 | narrowing to `Int` is the identity in range and otherwise differs by a multiple of 2^32 |
| Jvm.Increment | libnavigation-core/src/main/java/com/mapbox/navigation/core/routerefresh/RouteRefreshApi.kt:74 | `counter++` adds one, except that the largest `Int` wraps to the smallest |
| Jvm.Rem | libnavigation-core/src/main/java/com/mapbox/navigation/core/routerefresh/RouteRefreshApi.kt:74 | Kotlin's `%` has the dividend's sign, magnitude below the divisor, and differs from the dividend by a multiple of the divisor |
| Jvm.IsEvenIsEuclidean | libnavigation-core/src/main/java/com/mapbox/navigation/core/routerefresh/RouteRefreshApi.kt:74 | `counter % 2 == 0` holds exactly for even counters, negative ones included |
| Jvm.WrapKeepsParity | libnavigation-core/src/main/java/com/mapbox/navigation/core/routerefresh/RouteRefreshApi.kt:74 | wrap-around never changes the counter's parity |
| Jvm.IncrementByStep | libnavigation-core/src/main/java/com/mapbox/navigation/core/routerefresh/RouteRefreshApi.kt:74 | `c + k` narrowed to `Int` is `counter++` applied `k` times: no increments keep `c`, and one increment followed by `k` more is `k + 1` increments, across wrap-around |
| Jvm.IncrementByIsIterated | libnavigation-core/src/main/java/com/mapbox/navigation/core/routerefresh/RouteRefreshApi.kt:74 | the counter after `k` merged legs, `c + k` narrowed once, is what `counter++` executed `k` times one after another yields |
| Jvm.IncrementByParity | libnavigation-core/src/main/java/com/mapbox/navigation/core/routerefresh/RouteRefreshApi.kt:74 | after `k` increments the counter is even exactly when its start parity and `k`'s agree |
| Jvm.IncrementByAlternates | libnavigation-core/src/main/java/com/mapbox/navigation/core/routerefresh/RouteRefreshApi.kt:74 | consecutive counter values always have opposite parity |
| Jvm.SecondsToMillis | libnavigation-core/src/main/java/com/mapbox/navigation/core/routerefresh/RouteRefreshController.kt:28 | multiplies by 1000 in range and saturates at the `Long` bounds; positive exactly for positive input |
| Jvm.MinutesToMillis | libnavigation-util/src/main/java/com/mapbox/navigation/utils/timer/MapboxTimer.kt:20 | multiplies by 60000 in range and saturates at the `Long` bounds; positive exactly for positive input |
| Jvm.DecimalValue | libnavigation-core/src/main/java/com/mapbox/navigation/core/routerefresh/RouteRefreshApi.kt:32 | a string has a decimal value exactly when every character is a digit |
| Jvm.DecimalValueLeadingZero | libnavigation-core/src/main/java/com/mapbox/navigation/core/routerefresh/RouteRefreshApi.kt:32 | a leading zero never changes the value of a digit string |
| Jvm.Decimal | libnavigation-core/src/main/java/com/mapbox/navigation/core/routerefresh/RouteRefreshApi.kt:32 | the decimal spelling of a number is non-empty and starts with a digit |
| Jvm.DecimalValueOfDecimal | libnavigation-core/src/main/java/com/mapbox/navigation/core/routerefresh/RouteRefreshApi.kt:32 | reading back the decimal spelling of a number gives the number |
| Jvm.ParseInt | libnavigation-core/src/main/java/com/mapbox/navigation/core/routerefresh/RouteRefreshApi.kt:32 | `toInt()` accepts exactly an optional sign followed by at least one ASCII digit whose signed value fits in an `Int`, and a parsed value is that signed value |
| Jvm.ParseIntExamples | libnavigation-core/src/main/java/com/mapbox/navigation/core/routerefresh/RouteRefreshApi.kt:32 | "-5", "+5" and "007" parse to -5, 5 and 7; a bare sign, the empty string and "1a" are rejected |
| Jvm.ParseIntRange | libnavigation-core/src/main/java/com/mapbox/navigation/core/routerefresh/RouteRefreshApi.kt:32 | a decimal number, bare, with '+' or with '-', parses to its signed value exactly when that value lies in the `Int` range |
| Loops.CancelAll | libnavigation-core/src/main/java/com/mapbox/navigation/core/routerefresh/RouteRefreshController.kt:42-44 | `cancelChildren` stops every loop launched so far, keeps their count and changes nothing else about them |
| Loops.Wakes | libnavigation-util/src/main/java/com/mapbox/navigation/utils/timer/MapboxTimer.kt:24-27 | a loop wakes at least once exactly when its pending delay ends within the bound |
| Loops.WakeAfter | libnavigation-util/src/main/java/com/mapbox/navigation/utils/timer/MapboxTimer.kt:24-27 | after running up to a bound, the pending delay ends past the bound and no earlier than it did |
| Loops.WakesFirst | libnavigation-util/src/main/java/com/mapbox/navigation/utils/timer/MapboxTimer.kt:24-27 | a due loop wakes first at its pending time and then carries on one delay later |
| Loops.WakesAreEvenlySpaced | libnavigation-util/src/main/java/com/mapbox/navigation/utils/timer/MapboxTimer.kt:24-27 | the `k`-th wake is `k` delays after the first and within the bound, and the delay pending afterwards ends one delay after the last wake |
| Loops.WakesCount | libnavigation-util/src/main/java/com/mapbox/navigation/utils/timer/MapboxTimer.kt:24-27 | the number of wakes is `(until - next) / delay + 1` when the first is due |
| Loops.WakesSplit | libnavigation-util/src/main/java/com/mapbox/navigation/utils/timer/MapboxTimer.kt:24-27 | running to `mid` and then to `until` wakes at the same times and leaves the same pending delay as running to `until` at once |
| MapboxTimer.NewTimer | libnavigation-util/src/main/java/com/mapbox/navigation/utils/timer/MapboxTimer.kt:20 | a new timer has a one-minute interval (60000 ms) and no jobs |
| MapboxTimer.SetRouteRefreshInterval | libnavigation-util/src/main/java/com/mapbox/navigation/utils/timer/MapboxTimer.kt:20 | assigning the interval leaves every job, and its pending delay, as it was |
| MapboxTimer.StartRouteRefresh | libnavigation-util/src/main/java/com/mapbox/navigation/utils/timer/MapboxTimer.kt:22-29 | a new job is appended, with its first delay of the current interval starting now; earlier jobs are kept |
| MapboxTimer.StopJobs | libnavigation-util/src/main/java/com/mapbox/navigation/utils/timer/MapboxTimer.kt:31-33 | every job launched so far stops and keeps its record of runs |
| MapboxTimer.CancelJob | libnavigation-util/src/main/java/com/mapbox/navigation/utils/timer/MapboxTimer.kt:22 | cancelling the returned `Job` stops that job and no other |
| MapboxTimer.AdvanceTimeBy | libnavigation-util/src/main/java/com/mapbox/navigation/utils/timer/MapboxTimer.kt:23-28 | each job runs independently of the others, stopped jobs never run, and every running delay still ends in the future afterwards |
| MapboxTimer.InvocationCount | libnavigation-util/src/main/java/com/mapbox/navigation/utils/timer/MapboxTimer.kt:24-27 | a running job gains `(now + d - next) / interval + 1` runs when its delay ends in time and none otherwise, at evenly spaced times |
| MapboxTimer.RunJobSplit | libnavigation-util/src/main/java/com/mapbox/navigation/utils/timer/MapboxTimer.kt:24-27 | running a job to `mid` and then to `until` is running it to `until` |
| MapboxTimer.AdvanceIsAdditive | libnavigation-util/src/main/java/com/mapbox/navigation/utils/timer/MapboxTimer.kt:23-28 | with the interval unchanged, letting `d1` and then `d2` pass is letting `d1 + d2` pass |
| MapboxTimer.StoppedJobsStayStopped | libnavigation-util/src/main/java/com/mapbox/navigation/utils/timer/MapboxTimer.kt:31-33 | after `stopJobs` no earlier job ever runs again |
| MapboxTimer.StartAfterStopRuns | libnavigation-util/src/main/java/com/mapbox/navigation/utils/timer/MapboxTimer.kt:22-33 | a job started after `stopJobs` keeps running on the normal schedule |
| MapboxTimerScenarios.StartedWith | libnavigation-util/src/test/java/com/mapbox/navigation/utils/timer/MapboxTimerTest.kt:24-25 | the tests' set-up: one running job whose first delay is the chosen interval |
| MapboxTimerScenarios.NotCalledBeforeInterval | libnavigation-util/src/test/java/com/mapbox/navigation/utils/timer/MapboxTimerTest.kt:22-30 | 5-minute interval, 4 minutes pass: the lambda never runs |
| MapboxTimerScenarios.CalledAfterInterval | libnavigation-util/src/test/java/com/mapbox/navigation/utils/timer/MapboxTimerTest.kt:32-40 | 5-minute interval, 6 minutes pass: it runs once, at 5 minutes |
| MapboxTimerScenarios.CalledMultipleTimes | libnavigation-util/src/test/java/com/mapbox/navigation/utils/timer/MapboxTimerTest.kt:42-50 | 5-minute interval, 26 minutes pass: it runs 5 times |
| MapboxTimerScenarios.IntervalChangeTakesEffectAfterPendingDelay | libnavigation-util/src/test/java/com/mapbox/navigation/utils/timer/MapboxTimerTest.kt:52-62 | 1 minute, then a 10-minute interval for 10 more: it runs twice, at 1 and 2 minutes |
| MapboxTimerScenarios.StopsWhenCanceled | libnavigation-util/src/test/java/com/mapbox/navigation/utils/timer/MapboxTimerTest.kt:64-74 | after `stopJobs` at 6 minutes and 30 more minutes, it has run once |
| MapboxTimerScenarios.JobsRunSeparately | libnavigation-util/src/test/java/com/mapbox/navigation/utils/timer/MapboxTimerTest.kt:76-91 | two jobs phased from their own starts run twice and once |
| MapboxTimerScenarios.StopAndRestart | libnavigation-util/src/test/java/com/mapbox/navigation/utils/timer/MapboxTimerTest.kt:93-113 | the stopped job runs once, and the job started after the stop runs once, 5 minutes after its start |
| RouteRefreshController.NewController | libnavigation-core/src/main/java/com/mapbox/navigation/core/routerefresh/RouteRefreshController.kt:22-23 | a new controller has an empty token, no loops, and `intervalSeconds` 30000 |
| RouteRefreshController.DelayMillis | libnavigation-core/src/main/java/com/mapbox/navigation/core/routerefresh/RouteRefreshController.kt:28 | the delay is positive exactly for a positive interval, and is the interval times 1000 in range |
| RouteRefreshController.DefaultDelay | libnavigation-core/src/main/java/com/mapbox/navigation/core/routerefresh/RouteRefreshController.kt:23-28 | the default interval, converted twice, makes each delay 30,000,000 ms |
| RouteRefreshController.SetAccessToken | libnavigation-core/src/main/java/com/mapbox/navigation/core/routerefresh/RouteRefreshController.kt:22 | assigning the token changes nothing else |
| RouteRefreshController.SetIntervalSeconds | libnavigation-core/src/main/java/com/mapbox/navigation/core/routerefresh/RouteRefreshController.kt:23 | assigning the interval leaves the loops and their pending delays as they were |
| RouteRefreshController.CurrentLegIndex | libnavigation-core/src/main/java/com/mapbox/navigation/core/routerefresh/RouteRefreshController.kt:60 | the leg index is the progress's current leg index, or 0 when progress or leg progress is missing |
| RouteRefreshController.BuildRequest | libnavigation-core/src/main/java/com/mapbox/navigation/core/routerefresh/RouteRefreshController.kt:46-62 | a request exists exactly when the token is non-empty, the session has a route, and its options carry a non-empty UUID; it then carries that token, route, UUID and leg index |
| RouteRefreshController.Delivery | libnavigation-core/src/main/java/com/mapbox/navigation/core/routerefresh/RouteRefreshController.kt:31-37 | the callback runs exactly for a call that returned a route, with the original route and the returned one |
| RouteRefreshController.RefreshRoute | libnavigation-core/src/main/java/com/mapbox/navigation/core/routerefresh/RouteRefreshController.kt:25-29 | a new loop is appended whose first delay, of the current interval, starts now; nothing else changes |
| RouteRefreshController.Stop | libnavigation-core/src/main/java/com/mapbox/navigation/core/routerefresh/RouteRefreshController.kt:42-44 | every loop launched so far stops; nothing else changes |
| RouteRefreshController.CancelJob | libnavigation-core/src/main/java/com/mapbox/navigation/core/routerefresh/RouteRefreshController.kt:25 | cancelling the returned `Job` stops that loop and no other |
| RouteRefreshController.Fire | libnavigation-core/src/main/java/com/mapbox/navigation/core/routerefresh/RouteRefreshController.kt:27-38 | a wake happens at the loop's pending time and touches only that loop; the loop re-arms with the current interval unless the call never returned |
| RouteRefreshController.FireIsConsistent | libnavigation-core/src/main/java/com/mapbox/navigation/core/routerefresh/RouteRefreshController.kt:30-37 | a wake is skipped exactly when no request can be built, calls with the request built at that time, ends as the network's answer dictates, hands `function.invoke` exactly the original route merged with the answer's annotations at the controller's counter, leaves the counter where that `refresh` left it (so the next call's relabelling continues from this one), and a skipped wake leaves the counter alone |
| RouteRefreshController.EarliestDue | libnavigation-core/src/main/java/com/mapbox/navigation/core/routerefresh/RouteRefreshController.kt:26-28 | the loop that wakes next is due, has the earliest pending time, and was launched first among equals; none exactly when no loop is due |
| RouteRefreshController.RunUntil | libnavigation-core/src/main/java/com/mapbox/navigation/core/routerefresh/RouteRefreshController.kt:27-38 | after running to `until`, no loop is due any more, and the token, interval and loop count are kept |
| RouteRefreshController.AdvanceTo | libnavigation-core/src/main/java/com/mapbox/navigation/core/routerefresh/RouteRefreshController.kt:27-38 | after time passes to `until`, every running loop's delay ends later than `until` |
| RouteRefreshController.FirstWake | libnavigation-core/src/main/java/com/mapbox/navigation/core/routerefresh/RouteRefreshController.kt:27-38 | a run begins with the earliest-due loop's wake and continues from the state it leaves |
| RouteRefreshController.CycleIsConsistent | libnavigation-core/src/main/java/com/mapbox/navigation/core/routerefresh/RouteRefreshController.kt:30-37 | every wake of a run agrees with what the session reported and the network answered at its time (a delivered route is the merge of that answer), and happens no later than `until` |
| RouteRefreshController.SkippedCyclesKeepCounter | libnavigation-core/src/main/java/com/mapbox/navigation/core/routerefresh/RouteRefreshController.kt:30-31 | a run in which every wake is skipped leaves the refresh API's counter as it was |
| RouteRefreshController.NoTokenNeverCalls | libnavigation-core/src/main/java/com/mapbox/navigation/core/routerefresh/RouteRefreshController.kt:47-50 | with an empty token every wake is skipped, no callback runs and the counter never moves, whatever the session and network do |
| RouteRefreshController.StoppedLoopsStaySilent | libnavigation-core/src/main/java/com/mapbox/navigation/core/routerefresh/RouteRefreshController.kt:42-44 | after `stop`, no loop launched before it ever wakes again |
| RouteRefreshController.SingleLoopWakeTimes | libnavigation-core/src/main/java/com/mapbox/navigation/core/routerefresh/RouteRefreshController.kt:27-28 | a single loop wakes at `next`, `next + d`, … up to `until` until a call never returns; it still runs exactly when no call stalled, and then it has woken at every one of those times |
| RouteRefreshController.SteadyLoop | libnavigation-core/src/main/java/com/mapbox/navigation/core/routerefresh/RouteRefreshController.kt:27-38 | when requests can always be built and no call stalls, `refresh` is called at every scheduled wake with the request of that moment, and the loop keeps running on schedule |
| RouteRefreshController.FailuresAreSwallowed | libnavigation-core/src/main/java/com/mapbox/navigation/core/routerefresh/RouteRefreshController.kt:64-71 | when the network never answers with a route, every call throws, the error is swallowed, and no callback runs |
| RouteRefreshControllerScenarios.Launched | libnavigation-core/src/test/java/com/mapbox/navigation/core/routerefresh/RouteRefreshControllerTest.kt:29-32 | the tests' set-up: token "test_access_token", the chosen interval, one loop whose first delay ends one interval in |
| RouteRefreshControllerScenarios.TestRouteBuildsRequest | libnavigation-core/src/test/java/com/mapbox/navigation/core/routerefresh/RouteRefreshControllerTest.kt:115-117 | with the test route and no progress, each wake builds the request with "test_access_token", "test_id" and leg index 0 |
| RouteRefreshControllerScenarios.EchoResumes | libnavigation-core/src/test/java/com/mapbox/navigation/core/routerefresh/RouteRefreshControllerTest.kt:51 | a network that echoes the route never strands a call |
| RouteRefreshControllerScenarios.FailingResumes | libnavigation-core/src/test/java/com/mapbox/navigation/core/routerefresh/RouteRefreshControllerTest.kt:128 | a network that always fails never strands a call |
| RouteRefreshControllerScenarios.RefreshesOverInterval | libnavigation-core/src/test/java/com/mapbox/navigation/core/routerefresh/RouteRefreshControllerTest.kt:43-58 | 5 s interval, 10000 ms: exactly two calls, at 5000 and 10000 ms, each with "test_access_token", "test_id" and leg index 0, and the loop still running |
| RouteRefreshControllerScenarios.OneSecondPhase | libnavigation-core/src/test/java/com/mapbox/navigation/core/routerefresh/RouteRefreshControllerTest.kt:90-92 | a 1 s interval for 1100 ms: one call at 1000 ms, and the next delay ends at 2000 ms |
| RouteRefreshControllerScenarios.TenSecondPhase | libnavigation-core/src/test/java/com/mapbox/navigation/core/routerefresh/RouteRefreshControllerTest.kt:93-94 | with a 10 s interval and the delay ending at 2000 ms, up to 21200 ms: calls at 2000 and 12000 ms |
| RouteRefreshControllerScenarios.IntervalUpdateWhileRunning | libnavigation-core/src/test/java/com/mapbox/navigation/core/routerefresh/RouteRefreshControllerTest.kt:77-98 | the interval change at 1100 ms gives exactly three calls, at 1000, 2000 and 12000 ms |
| RouteRefreshControllerScenarios.SurvivesApiFailure | libnavigation-core/src/test/java/com/mapbox/navigation/core/routerefresh/RouteRefreshControllerTest.kt:120-133 | every call failing: each wake still calls, the error reaches no callback, and the loop keeps running |
| RouteRefreshControllerScenarios.RequiresAccessToken | libnavigation-core/src/test/java/com/mapbox/navigation/core/routerefresh/RouteRefreshControllerTest.kt:36-41 | with an empty token, even a running loop never calls the refresh API in 10000 ms |

## Left out

- Network and router I/O are left out: Retrofit, `MapboxDirectionsRefresh`, `enqueueCall`, `suspendCoroutine` and `Router.getRoute`. The router's answers are events passed to `DirectionsSession.OnRouterOutcome`, which hands them to the callback of the request that is answered. The refresh network is a function argument `respond`.
- Coroutine machinery is replaced by discrete milliseconds: `ThreadController` scopes, `launch`, `isActive`, `delay` and `Job`. A `Job` is the index of its loop. Time passes to an absolute target (`AdvanceTo`) rather than by a step, and the timer's `AdvanceTimeBy` takes the step.
- Logging (`Log`, `println`, `printStackTrace`) has no effect on behaviour and is left out.
- Thread safety of `CopyOnWriteArrayList` is left out. Observers are a plain sequence of identities.
- Floating-point values are left out: coordinates, bearings, distances and `toDouble()`. The code only copies them, so they are opaque `real`s.
- `getRouteOptions()` is only a getter. It is the session's `routeOptions` field.
- `RouteRefresh.kt` is a two-field record. It is the `RouteRefresh` datatype.
- `RouteUrlTest.kt` is not part of this model, because the `RouteUrl` implementation it exercises is not available.
- RouteRefreshController.RefreshRoute: requires a positive interval. `delay` of zero or less does not suspend, so such a loop spins forever without time passing, and a terminating model cannot follow it.
- MapboxTimer.StartRouteRefresh: requires a positive interval, for the same reason.
- RouteRefreshController.RunUntil: requires a positive interval, for the same reason. `AdvanceTo` and `MapboxTimer.AdvanceTimeBy` carry the same requirement.
- Jvm.ParseInt: accepts only ASCII digits. `Integer.parseInt` also accepts other Unicode decimal digits.
- RouteRefreshController.Fire, RouteRefreshController.SingleLoopWakeTimes, RouteRefreshController.StoppedLoopsStaySilent: a refresh call takes no time. In the code the next `delay` starts only after `callRefreshRoute` returns, so each later wake drifts by the call's latency; the model re-arms at the wake time plus the interval. `suspendCoroutine` is not cancellable either, so a `stop()` while a call is in flight still lets `function.invoke` run once after the stop; the model, in which a call returns at the instant it is made, cannot show that invocation.
- RouteRefreshController.EarliestDue: loops due at the same millisecond wake in launch order. This approximates the test dispatcher's order.
- RouteRefreshApi.Refresh: a merge that runs past the end of the response throws inside the network callback. The caller is then never resumed. This is modelled as the `NeverResumed` outcome, and the loop stays suspended for good; the exception on the callback thread is not modelled further.
- Leg indices are natural numbers. A negative Kotlin `Int` leg index is not modelled.
- The controller tests mock `RouteRefreshApi.refresh` as a whole. The scenarios instead run the real `refresh` against a network that echoes the route or always fails; the call counts and request parameters are the same.

=== FILE: directions.dfy ===
/**
 * The Directions API values the navigation core reads and rebuilds. Every
 * floating-point quantity (coordinates, bearings, distances) is only ever
 * copied by the core, so `real` serves as an opaque carrier for it.
 */
module Directions {
  import opened Wrappers

  /** A geographic position (`Point.fromLngLat`). */
  datatype Point = Point(longitude: real, latitude: real)

  /**
   * One entry of `RouteOptions.bearingsList()`: a `[angle, tolerance]` list
   * of doubles, or null for "no bearing at this waypoint".
   */
  type Bearing = Option<seq<real>>

  /** The request parameters that produced a route. */
  datatype RouteOptions = RouteOptions(
    profile: string,
    coordinates: seq<Point>,
    bearings: Option<seq<Bearing>>,
    alternatives: Option<bool>,
    radiuses: Option<string>,
    approaches: Option<string>,
    waypointIndices: Option<string>,
    waypointNames: Option<string>,
    waypointTargets: Option<string>,
    requestUuid: Option<string>)

  /** Per-segment metrics of one leg; `congestion` holds labels such as "low" or "heavy". */
  datatype LegAnnotation = LegAnnotation(
    distance: Option<seq<real>>,
    duration: Option<seq<real>>,
    speed: Option<seq<real>>,
    congestion: Option<seq<string>>)

  datatype RouteLeg = RouteLeg(
    distance: real,
    duration: real,
    summary: string,
    annotation: Option<LegAnnotation>)

  /** A computed route; `routeIndex` is the string the Directions API returns. */
  datatype DirectionsRoute = DirectionsRoute(
    geometry: string,
    distance: real,
    duration: real,
    legs: Option<seq<RouteLeg>>,
    routeIndex: Option<string>,
    routeOptions: Option<RouteOptions>)

  /** A device fix: position and heading. */
  datatype Location = Location(longitude: real, latitude: real, bearing: real)

  datatype LegProgress = LegProgress(legIndex: nat)

  /** Live navigation progress along the active route. */
  datatype RouteProgress = RouteProgress(currentLegProgress: Option<LegProgress>)
}

=== FILE: directions_session.dfy ===
/**
 * `MapboxDirectionsSession`: the owner of the current route list. Each
 * operation is a pure function from the session state to the next state and
 * the trace of effects it performs, in order: calls into the router port
 * (`cancel`, `getRoute`), observer notifications and request callbacks.
 * A `getRoute` call hands the router a `RouterCallback` value; the router's
 * later answer is fed back through `OnRouterOutcome`.
 */
module DirectionsSession {
  import opened Wrappers
  import opened Directions

  /** Identity of a registered `RoutesObserver`. */
  type ObserverId = nat

  /** Identity of a `RoutesRequestCallback` supplied by a caller. */
  type CallbackId = nat

  /** How the router answers a `getRoute` call. */
  datatype RouterOutcome =
    | Response(routes: seq<DirectionsRoute>)
    | Failure(throwable: string)
    | Canceled

  /** An externally visible effect of the session. */
  datatype Effect =
    | RouterCancel
    | RouterGetRoute(options: RouteOptions)
    | RoutesChanged(observer: ObserverId, routes: seq<DirectionsRoute>)
    | RoutesReady(callback: CallbackId, routes: seq<DirectionsRoute>)
    | RequestFailure(callback: CallbackId, throwable: string, options: RouteOptions)
    | RequestCanceled(callback: CallbackId, options: RouteOptions)

  /** The `Router.Callback` object a request passes to `getRoute`, with what it captured. */
  datatype RouterCallback =
    | RoutesRequest(requested: RouteOptions, callback: Option<CallbackId>)
    | FasterRouteRequest(fasterCallback: CallbackId)

  /** The session's fields: current routes, the options of the last route set, the observer list. */
  datatype Session = Session(
    routes: seq<DirectionsRoute>,
    routeOptions: Option<RouteOptions>,
    observers: seq<ObserverId>)

  /** A session after an operation, with the effects the operation performed. */
  datatype Step = Step(session: Session, effects: seq<Effect>)

  /** `buildAdjustedRouteOptions` throws from `subList` when the bearings list is too short. */
  datatype AdjustError = BearingsSubListOutOfBounds

  const DEFAULT_REROUTE_BEARING_TOLERANCE: real := 90.0

  /** `es` tells every observer in `observers`, one each and in list order, that the routes are now `routes`. */
  predicate NotifiesInOrder(es: seq<Effect>, observers: seq<ObserverId>, routes: seq<DirectionsRoute>) {
    && |es| == |observers|
    && forall k :: 0 <= k < |es| ==> es[k] == RoutesChanged(observers[k], routes)
  }

  /** `routesObservers.forEach { it.onRoutesChanged(routes) }`. */
  function NotifyAll(observers: seq<ObserverId>, routes: seq<DirectionsRoute>): (es: seq<Effect>)
    ensures NotifiesInOrder(es, observers, routes)
  {
    if |observers| == 0 then []
    else [RoutesChanged(observers[0], routes)] + NotifyAll(observers[1..], routes)
  }

  /**
   * The `routes` setter. The router is always cancelled first; assigning an
   * empty list to an empty session stops there. Otherwise the list is stored,
   * the first route's options are remembered when there is a first route, and
   * every observer is told.
   */
  function SetRoutes(s: Session, newRoutes: seq<DirectionsRoute>): (r: Step)
    ensures r.session.routes == newRoutes
    ensures r.session.observers == s.observers
    ensures |r.effects| > 0 && r.effects[0] == RouterCancel
    ensures |s.routes| == 0 && |newRoutes| == 0 ==> r.session == s && r.effects == [RouterCancel]
    ensures |s.routes| > 0 || |newRoutes| > 0 ==> NotifiesInOrder(r.effects[1..], s.observers, newRoutes)
    ensures |newRoutes| > 0 ==> r.session.routeOptions == newRoutes[0].routeOptions
    ensures |newRoutes| == 0 ==> r.session.routeOptions == s.routeOptions
  {
    if |s.routes| == 0 && |newRoutes| == 0 then
      Step(s, [RouterCancel])
    else
      var options := if |newRoutes| > 0 then newRoutes[0].routeOptions else s.routeOptions;
      Step(s.(routes := newRoutes, routeOptions := options), [RouterCancel] + NotifyAll(s.observers, newRoutes))
  }

  /** `cancel()`: cancels the router and nothing else. */
  function Cancel(s: Session): (r: Step)
    ensures r.session == s && r.effects == [RouterCancel]
  {
    Step(s, [RouterCancel])
  }

  /** `shutDownSession()` is `cancel()`. */
  function ShutDownSession(s: Session): (r: Step)
    ensures r.session == s && r.effects == [RouterCancel]
  {
    Cancel(s)
  }

  /**
   * `requestRoutes`: clears the routes (observers of a non-empty session see
   * the empty list), then asks the router for routes for `options`.
   */
  function RequestRoutes(s: Session, options: RouteOptions, callback: Option<CallbackId>): (r: (Step, RouterCallback))
    ensures r.0.session == s.(routes := [])
    ensures r.1 == RoutesRequest(options, callback)
    ensures |s.routes| == 0 ==> r.0.effects == [RouterCancel, RouterGetRoute(options)]
    ensures |s.routes| > 0 ==>
      && |r.0.effects| == |s.observers| + 2
      && r.0.effects[0] == RouterCancel
      && NotifiesInOrder(r.0.effects[1..|s.observers| + 1], s.observers, [])
      && r.0.effects[|s.observers| + 1] == RouterGetRoute(options)
  {
    var cleared := SetRoutes(s, []);
    (Step(cleared.session, cleared.effects + [RouterGetRoute(options)]), RoutesRequest(options, callback))
  }

  /** Kotlin's `x?.let { effect(it) }`: one effect when `x` is non-null, none otherwise. */
  function Report<T>(x: Option<T>, effect: T -> Effect): seq<Effect> {
    match x
    case None => []
    case Some(id) => [effect(id)]
  }

  /**
   * The `Router.Callback` of `requestRoutes` answers: routes are adopted as
   * by the setter and then reported to the caller; a failure or a
   * cancellation leaves the session alone and reports the options that were
   * requested. Without a caller's callback nothing is reported.
   */
  function OnRoutesRequestOutcome(s: Session, requested: RouteOptions, callback: Option<CallbackId>, outcome: RouterOutcome): (r: Step)
    ensures !outcome.Response? ==> r.session == s
    ensures outcome.Response? ==>
      && r.session == SetRoutes(s, outcome.routes).session
      && r.effects == SetRoutes(s, outcome.routes).effects + Report(callback, id => RoutesReady(id, outcome.routes))
    ensures outcome.Failure? ==> r.effects == Report(callback, id => RequestFailure(id, outcome.throwable, requested))
    ensures outcome.Canceled? ==> r.effects == Report(callback, id => RequestCanceled(id, requested))
  {
    match outcome
    case Response(routes) =>
      Step(SetRoutes(s, routes).session, SetRoutes(s, routes).effects + Report(callback, id => RoutesReady(id, routes)))
    case Failure(throwable) =>
      Step(s, Report(callback, id => RequestFailure(id, throwable, requested)))
    case Canceled =>
      Step(s, Report(callback, id => RequestCanceled(id, requested)))
  }

  /**
   * The `Router.Callback` of `requestFasterRoute` answers: the session never
   * changes; routes go to the caller, and a failure or a cancellation is
   * reported with the session's stored options, or not at all when there
   * are none.
   */
  function OnFasterRouteOutcome(s: Session, callback: CallbackId, outcome: RouterOutcome): (r: Step)
    ensures r.session == s
    ensures outcome.Response? ==> r.effects == [RoutesReady(callback, outcome.routes)]
    ensures !outcome.Response? && s.routeOptions.None? ==> r.effects == []
    ensures outcome.Failure? && s.routeOptions.Some? ==>
      r.effects == [RequestFailure(callback, outcome.throwable, s.routeOptions.value)]
    ensures outcome.Canceled? && s.routeOptions.Some? ==>
      r.effects == [RequestCanceled(callback, s.routeOptions.value)]
  {
    match outcome
    case Response(routes) => Step(s, [RoutesReady(callback, routes)])
    case Failure(throwable) =>
      Step(s, Report(s.routeOptions, options => RequestFailure(callback, throwable, options)))
    case Canceled =>
      Step(s, Report(s.routeOptions, options => RequestCanceled(callback, options)))
  }

  /**
   * The router answers the request that handed it `pending`: only routes
   * answering `requestRoutes` change the session, and then they are adopted
   * as by the setter (the router cancelled, every observer told in order,
   * the first route's options stored), so the session holds exactly those
   * routes with the same observers; the caller's callback hears last; a
   * faster-route answer reaches its caller alone. A failure or cancellation
   * is reported with the requested options for `requestRoutes`, and with the
   * stored options, or not at all, for `requestFasterRoute`.
   */
  function OnRouterOutcome(s: Session, pending: RouterCallback, outcome: RouterOutcome): (r: Step)
    ensures !(pending.RoutesRequest? && outcome.Response?) ==> r.session == s
    ensures pending.RoutesRequest? && outcome.Response? ==>
      && r.session.routes == outcome.routes && r.session.observers == s.observers
      && r.session == SetRoutes(s, outcome.routes).session
      && r.effects == SetRoutes(s, outcome.routes).effects + Report(pending.callback, id => RoutesReady(id, outcome.routes))
    ensures pending.RoutesRequest? && pending.callback.Some? && outcome.Response? ==>
      |r.effects| > 0 && r.effects[|r.effects| - 1] == RoutesReady(pending.callback.value, outcome.routes)
    ensures pending.FasterRouteRequest? ==>
      && |r.effects| <= 1
      && (outcome.Response? ==> r.effects == [RoutesReady(pending.fasterCallback, outcome.routes)])
    ensures pending.RoutesRequest? && outcome.Failure? ==>
      r.effects == Report(pending.callback, id => RequestFailure(id, outcome.throwable, pending.requested))
    ensures pending.RoutesRequest? && outcome.Canceled? ==>
      r.effects == Report(pending.callback, id => RequestCanceled(id, pending.requested))
    ensures pending.FasterRouteRequest? && !outcome.Response? && s.routeOptions.None? ==> r.effects == []
    ensures pending.FasterRouteRequest? && outcome.Failure? && s.routeOptions.Some? ==>
      r.effects == [RequestFailure(pending.fasterCallback, outcome.throwable, s.routeOptions.value)]
    ensures pending.FasterRouteRequest? && outcome.Canceled? && s.routeOptions.Some? ==>
      r.effects == [RequestCanceled(pending.fasterCallback, s.routeOptions.value)]
  {
    match pending
    case RoutesRequest(requested, callback) => OnRoutesRequestOutcome(s, requested, callback, outcome)
    case FasterRouteRequest(callback) => OnFasterRouteOutcome(s, callback, outcome)
  }

  /**
   * `requestFasterRoute`: with no current routes it reports cancellation with
   * the adjusted options and never reaches the router; otherwise it asks the
   * router and leaves the session as it is.
   */
  function RequestFasterRoute(s: Session, adjusted: RouteOptions, callback: CallbackId): (r: (Step, Option<RouterCallback>))
    ensures r.0.session == s
    ensures |s.routes| == 0 ==> r.0.effects == [RequestCanceled(callback, adjusted)] && r.1 == None
    ensures |s.routes| > 0 ==> r.0.effects == [RouterGetRoute(adjusted)] && r.1 == Some(FasterRouteRequest(callback))
  {
    if |s.routes| == 0 then
      (Step(s, [RequestCanceled(callback, adjusted)]), None)
    else
      (Step(s, [RouterGetRoute(adjusted)]), Some(FasterRouteRequest(callback)))
  }

  /** `registerRoutesObserver`: appends, and replays the current routes to the newcomer when there are any. */
  function RegisterRoutesObserver(s: Session, o: ObserverId): (r: Step)
    ensures r.session == s.(observers := s.observers + [o])
    ensures |s.routes| > 0 ==> r.effects == [RoutesChanged(o, s.routes)]
    ensures |s.routes| == 0 ==> r.effects == []
  {
    Step(s.(observers := s.observers + [o]), if |s.routes| > 0 then [RoutesChanged(o, s.routes)] else [])
  }

  /** The position of the first occurrence of `o` in `xs`. */
  function IndexOf(xs: seq<ObserverId>, o: ObserverId): (i: nat)
    requires o in xs
    ensures i < |xs| && xs[i] == o && o !in xs[..i]
  {
    if xs[0] == o then 0
    else
      assert xs[1..][..IndexOf(xs[1..], o)] == xs[1..IndexOf(xs[1..], o) + 1];
      IndexOf(xs[1..], o) + 1
  }

  /**
   * `List.remove(element)`: drops the first occurrence of `o`, if any, and
   * keeps every other observer in its place.
   */
  function RemoveFirst(xs: seq<ObserverId>, o: ObserverId): (ys: seq<ObserverId>)
    ensures o !in xs ==> ys == xs
    ensures o in xs ==> ys == xs[..IndexOf(xs, o)] + xs[IndexOf(xs, o) + 1..]
    ensures o in xs ==> |ys| == |xs| - 1 && multiset(ys) == multiset(xs) - multiset{o}
  {
    if |xs| == 0 then []
    else if xs[0] == o then
      assert xs == [xs[0]] + xs[1..];
      xs[1..]
    else
      var rest := RemoveFirst(xs[1..], o);
      RemoveFirstCons(xs, o, rest);
      if o in xs then
        CutFirstMultiset(xs, o);
        [xs[0]] + rest
      else [xs[0]] + rest
  }

  /** The step of `RemoveFirst` past an observer other than `o`. */
  lemma RemoveFirstCons(xs: seq<ObserverId>, o: ObserverId, rest: seq<ObserverId>)
    requires |xs| > 0 && xs[0] != o
    requires o !in xs[1..] ==> rest == xs[1..]
    requires o in xs[1..] ==> rest == xs[1..][..IndexOf(xs[1..], o)] + xs[1..][IndexOf(xs[1..], o) + 1..]
    ensures o !in xs ==> [xs[0]] + rest == xs
    ensures o in xs ==> [xs[0]] + rest == xs[..IndexOf(xs, o)] + xs[IndexOf(xs, o) + 1..]
  {
    assert xs == [xs[0]] + xs[1..];
    if o in xs {
      var i := IndexOf(xs[1..], o);
      assert xs[..i + 1] == [xs[0]] + xs[1..][..i];
      assert xs[i + 2..] == xs[1..][i + 1..];
    }
  }

  /** Cutting out the first `o` takes exactly one `o` away. */
  lemma CutFirstMultiset(xs: seq<ObserverId>, o: ObserverId)
    requires o in xs
    ensures var i := IndexOf(xs, o);
      |xs[..i] + xs[i + 1..]| == |xs| - 1 && multiset(xs[..i] + xs[i + 1..]) == multiset(xs) - multiset{o}
  {
    var i := IndexOf(xs, o);
    var before, after := xs[..i], xs[i + 1..];
    assert xs == before + [o] + after;
    assert multiset(xs) == multiset(before) + multiset{o} + multiset(after);
  }

  /** `unregisterRoutesObserver`: removes one registration of `o`; no effects. */
  function UnregisterRoutesObserver(s: Session, o: ObserverId): (r: Step)
    ensures r.session.routes == s.routes && r.session.routeOptions == s.routeOptions
    ensures r.session.observers == RemoveFirst(s.observers, o)
    ensures r.effects == []
  {
    Step(s.(observers := RemoveFirst(s.observers, o)), [])
  }

  /** `unregisterAllRoutesObservers`: forgets every observer; no effects. */
  function UnregisterAllRoutesObservers(s: Session): (r: Step)
    ensures r.session == s.(observers := [])
    ensures r.effects == []
  {
    Step(s.(observers := []), [])
  }

  /** `bearingsList()?.getOrNull(0)?.getOrNull(1) ?: DEFAULT_REROUTE_BEARING_TOLERANCE`. */
  function OriginTolerance(bearings: Option<seq<Bearing>>): real {
    if bearings.Some? && |bearings.value| > 0 && bearings.value[0].Some? && |bearings.value[0].value| > 1
    then bearings.value[0].value[1]
    else DEFAULT_REROUTE_BEARING_TOLERANCE
  }

  /** Kotlin's `drop(m)`: everything after the first `m` elements. */
  function Drop<T>(xs: seq<T>, m: nat): (ys: seq<T>)
    ensures m <= |xs| ==> ys == xs[m..]
    ensures m > |xs| ==> ys == []
  {
    if m <= |xs| then xs[m..] else []
  }

  /** The `while (bearings.size < size) bearings.add(null)` loop. */
  function PadWithNulls(bearings: seq<Bearing>, size: nat): (r: seq<Bearing>)
    ensures |r| == if |bearings| < size then size else |bearings|
    ensures r[..|bearings|] == bearings
    ensures forall j :: |bearings| <= j < |r| ==> r[j] == None
    decreases size - |bearings|
  {
    if |bearings| < size then PadWithNulls(bearings + [None], size) else bearings
  }

  /**
   * `buildAdjustedRouteOptions`: without a current leg the options come back
   * unchanged. With leg index `k`, the coordinates become the device position
   * followed by those after the first `k + 1`, and the bearings become the
   * device heading with the origin tolerance, followed either by the original
   * entries `k + 1 .. n` (`n` the original coordinate count) or, when there
   * were none, by nulls up to `n` entries in all. Nothing else changes.
   */
  function BuildAdjustedRouteOptions(options: RouteOptions, progress: RouteProgress, location: Location): (r: Result<RouteOptions, AdjustError>)
    ensures progress.currentLegProgress.None? ==> r == Ok(options)
    ensures progress.currentLegProgress.Some? ==>
      var k := progress.currentLegProgress.value.legIndex;
      var n := |options.coordinates|;
      && (r.Err? <==> options.bearings.Some? && !(k + 1 <= n <= |options.bearings.value|))
      && (r.Ok? ==>
        && r.value.(coordinates := options.coordinates, bearings := options.bearings) == options
        && |r.value.coordinates| > 0
        && r.value.coordinates[0] == Point(location.longitude, location.latitude)
        && r.value.coordinates[1..] == Drop(options.coordinates, k + 1)
        && r.value.bearings.Some? && |r.value.bearings.value| > 0
        && r.value.bearings.value[0] == Some([location.bearing, OriginTolerance(options.bearings)])
        && (options.bearings.Some? ==> r.value.bearings.value[1..] == options.bearings.value[k + 1..n])
        && (options.bearings.None? ==>
              && |r.value.bearings.value| == (if n == 0 then 1 else n)
              && forall j :: 1 <= j < |r.value.bearings.value| ==> r.value.bearings.value[j] == None))
  {
    match progress.currentLegProgress
    case None => Ok(options)
    case Some(legProgress) =>
      var k := legProgress.legIndex;
      var n := |options.coordinates|;
      var coordinates := [Point(location.longitude, location.latitude)] + Drop(options.coordinates, k + 1);
      var first: Bearing := Some([location.bearing, OriginTolerance(options.bearings)]);
      match options.bearings
      case Some(original) =>
        if k + 1 <= n <= |original| then
          Ok(options.(coordinates := coordinates, bearings := Some([first] + original[k + 1..n])))
        else
          Err(BearingsSubListOutOfBounds)
      case None =>
        Ok(options.(coordinates := coordinates, bearings := Some(PadWithNulls([first], n))))
  }

  // ---------------------------------------------------------------------
  // Properties relating several operations

  /** After any assignment, a second assignment of `b` tells every observer about `b`, unless both lists are empty. */
  lemma ReassignmentNotifiesNewRoutes(s: Session, a: seq<DirectionsRoute>, b: seq<DirectionsRoute>)
    requires |a| > 0 || |b| > 0
    ensures var second := SetRoutes(SetRoutes(s, a).session, b);
      && second.session.routes == b
      && NotifiesInOrder(second.effects[1..], s.observers, b)
  {
  }

  /** Clearing an already cleared session only cancels the router: observers hear of the clearing once. */
  lemma ClearingTwiceNotifiesOnce(s: Session)
    ensures var cleared := SetRoutes(s, []).session;
      SetRoutes(cleared, []) == Step(cleared, [RouterCancel])
  {
  }

  /**
   * Unregistering an observer registered once, anywhere in the list, leaves
   * the observers before and after it in their order.
   */
  lemma RemoveFirstFromMiddle(a: seq<ObserverId>, o: ObserverId, b: seq<ObserverId>)
    requires o !in a
    ensures RemoveFirst(a + [o] + b, o) == a + b
  {
    var xs := a + [o] + b;
    assert xs[..|a|] == a && xs[|a| + 1..] == b;
  }

  lemma RemoveFirstOfAppended(xs: seq<ObserverId>, o: ObserverId)
    requires o !in xs
    ensures RemoveFirst(xs + [o], o) == xs
  {
    RemoveFirstFromMiddle(xs, o, []);
    assert xs + [o] + [] == xs + [o] && xs + [] == xs;
  }

  /** Unregistering a newly registered observer restores the session exactly. */
  lemma RegisterThenUnregister(s: Session, o: ObserverId)
    requires o !in s.observers
    ensures UnregisterRoutesObserver(RegisterRoutesObserver(s, o).session, o).session == s
  {
    RemoveFirstOfAppended(s.observers, o);
  }

  /**
   * A routes request the router answers with `routes`: the session ends with
   * exactly those routes, and the caller's callback is the last to hear.
   */
  lemma RequestRoutesThenResponse(s: Session, options: RouteOptions, callback: Option<CallbackId>, routes: seq<DirectionsRoute>)
    ensures var (requested, pending) := RequestRoutes(s, options, callback);
      var done := OnRouterOutcome(requested.session, pending, Response(routes));
      && done.session.routes == routes
      && done.session.observers == s.observers
      && done.session.routeOptions == (if |routes| > 0 then routes[0].routeOptions else s.routeOptions)
      && (|routes| > 0 ==> NotifiesInOrder(done.effects[1..|s.observers| + 1], s.observers, routes))
      && (|routes| == 0 ==> done.effects == [RouterCancel] + Report(callback, id => RoutesReady(id, routes)))
      && (callback.Some? ==> done.effects[|done.effects| - 1] == RoutesReady(callback.value, routes))
  {
  }

  /**
   * A routes request that fails or is cancelled leaves the session without
   * routes, and the caller hears back with the options it asked for.
   */
  lemma RequestRoutesThenNoRoutes(s: Session, options: RouteOptions, callback: CallbackId, outcome: RouterOutcome)
    requires !outcome.Response?
    ensures var (requested, pending) := RequestRoutes(s, options, Some(callback));
      var done := OnRouterOutcome(requested.session, pending, outcome);
      && done.session.routes == []
      && done.session.routeOptions == s.routeOptions
      && done.effects == [if outcome.Failure? then RequestFailure(callback, outcome.throwable, options)
                          else RequestCanceled(callback, options)]
  {
  }

  /** A faster-route request is advisory: whatever the router answers, the session is unchanged. */
  lemma FasterRouteNeverCommits(s: Session, adjusted: RouteOptions, callback: CallbackId, outcome: RouterOutcome)
    ensures var (requested, pending) := RequestFasterRoute(s, adjusted, callback);
      && requested.session == s
      && (pending.Some? ==> OnRouterOutcome(s, pending.value, outcome).session == s)
      && (RouterGetRoute(adjusted) in requested.effects <==> |s.routes| > 0)
  {
  }

  /**
   * When the original options carry one bearing per coordinate, the adjusted
   * options do too.
   */
  lemma AdjustedBearingsStayParallel(options: RouteOptions, progress: RouteProgress, location: Location)
    requires options.bearings.Some? && |options.bearings.value| == |options.coordinates|
    requires progress.currentLegProgress.Some? && progress.currentLegProgress.value.legIndex < |options.coordinates|
    ensures var r := BuildAdjustedRouteOptions(options, progress, location);
      && r.Ok?
      && |r.value.coordinates| == |options.coordinates| - progress.currentLegProgress.value.legIndex
      && |r.value.bearings.value| == |r.value.coordinates|
  {
  }

  /**
   * Without original bearings, the nulls pad the new list to the ORIGINAL
   * coordinate count, so past the first leg it is longer than the new
   * coordinate list by the leg index.
   */
  lemma AdjustedPaddingUsesOriginalCount(options: RouteOptions, progress: RouteProgress, location: Location)
    requires options.bearings.None?
    requires progress.currentLegProgress.Some? && progress.currentLegProgress.value.legIndex < |options.coordinates|
    ensures var r := BuildAdjustedRouteOptions(options, progress, location);
      var k := progress.currentLegProgress.value.legIndex;
      && r.Ok?
      && |r.value.coordinates| == |options.coordinates| - k
      && |r.value.bearings.value| == |r.value.coordinates| + k
  {
  }

  /**
   * Origin (0,0), waypoints (1,0) and (2,0), destination (3,0), on leg 1, at
   * (1.5, 0.5) heading 45: the new coordinates are the position, (2,0) and
   * (3,0), and the first bearing is (45, 90).
   */
  lemma AdjustedOptionsExample()
    ensures var options := RouteOptions("driving", [Point(0.0, 0.0), Point(1.0, 0.0), Point(2.0, 0.0), Point(3.0, 0.0)],
                                        None, None, None, None, None, None, None, None);
      var r := BuildAdjustedRouteOptions(options, RouteProgress(Some(LegProgress(1))), Location(1.5, 0.5, 45.0));
      && r.Ok?
      && r.value.coordinates == [Point(1.5, 0.5), Point(2.0, 0.0), Point(3.0, 0.0)]
      && r.value.bearings == Some([Some([45.0, 90.0]), None, None, None])
  {
    var options := RouteOptions("driving", [Point(0.0, 0.0), Point(1.0, 0.0), Point(2.0, 0.0), Point(3.0, 0.0)],
                                None, None, None, None, None, None, None, None);
    var r := BuildAdjustedRouteOptions(options, RouteProgress(Some(LegProgress(1))), Location(1.5, 0.5, 45.0));
    var b := r.value.bearings.value;
    assert b[0] == Some([45.0, 90.0]);
    assert |b| == 4 && b[1] == None && b[2] == None && b[3] == None;
    assert b == [Some([45.0, 90.0]), None, None, None];
    assert Drop(options.coordinates, 2) == [Point(2.0, 0.0), Point(3.0, 0.0)];
  }
}

=== FILE: jvm.dfy ===
/**
 * The few JVM integer behaviours the navigation core relies on: 32-bit
 * wrap-around of a Kotlin `Int` counter, Kotlin's truncating `%`, the
 * saturating `TimeUnit` conversions, and `String.toInt()`.
 */
module Jvm {
  import opened Wrappers

  const INT_MIN: int := -0x8000_0000
  const INT_MAX: int := 0x7fff_ffff
  const INT_RANGE: int := 0x1_0000_0000

  /** A Kotlin `Int`. */
  type Int32 = x: int | INT_MIN <= x <= INT_MAX

  const LONG_MIN: int := -0x8000_0000_0000_0000
  const LONG_MAX: int := 0x7fff_ffff_ffff_ffff

  /** A Kotlin `Long`. */
  type Int64 = x: int | LONG_MIN <= x <= LONG_MAX

  /** Two's-complement narrowing of an unbounded integer to an `Int`. */
  function WrapInt(x: int): (r: Int32)
    ensures INT_MIN <= x <= INT_MAX ==> r == x
    ensures (x - r) % INT_RANGE == 0
  {
    (x - INT_MIN) % INT_RANGE + INT_MIN
  }

  /** `c++` on an `Int`: one more, except that `INT_MAX` wraps to `INT_MIN`. */
  function Increment(c: Int32): (r: Int32)
    ensures c < INT_MAX ==> r == c + 1
    ensures c == INT_MAX ==> r == INT_MIN
  {
    WrapInt(c + 1)
  }

  /** Kotlin's `%`: the quotient truncates toward zero, so the remainder has the dividend's sign. */
  function Rem(a: int, b: int): (r: int)
    requires b > 0
    ensures a >= 0 ==> 0 <= r < b
    ensures a < 0 ==> -b < r <= 0
    ensures (a - r) % b == 0
  {
    if a >= 0 then
      MultipleMod(a / b, b);
      assert a - a % b == (a / b) * b;
      a % b
    else
      MultipleMod(-((-a) / b), b);
      assert a + (-a) % b == -((-a) / b) * b;
      -((-a) % b)
  }

  /** A multiple of `b` leaves no Euclidean remainder. */
  lemma MultipleMod(q: int, b: int)
    requires b > 0
    ensures (q * b) % b == 0
  {
    var x := q * b;
    var d := x / b;
    var m := x % b;
    assert x == d * b + m;
    var e := q - d;
    assert e * b == m by {
      assert e * b == q * b - d * b;
    }
  }

  /** `c % 2 == 0` evaluated as Kotlin evaluates it. */
  predicate IsEven(c: int) {
    Rem(c, 2) == 0
  }

  /** Kotlin's evenness test agrees with Dafny's Euclidean one, negative values included. */
  lemma IsEvenIsEuclidean(x: int)
    ensures IsEven(x) <==> x % 2 == 0
  {
    if x < 0 {
      assert (-x) % 2 == 0 <==> x % 2 == 0;
    }
  }

  /** Narrowing after an addition is the same as narrowing once at the end. */
  lemma WrapAdd(x: int, y: int)
    ensures WrapInt(WrapInt(x) + y) == WrapInt(x + y)
  {
    var a := x - INT_MIN;
    var q := a / INT_RANGE;
    assert a == q * INT_RANGE + a % INT_RANGE;
    ModShift(a % INT_RANGE + y, q);
  }

  lemma ModShift(a: int, q: int)
    ensures (a + q * INT_RANGE) % INT_RANGE == a % INT_RANGE
  {
  }

  /** `INT_RANGE` is even, so wrap-around never changes a counter's parity. */
  lemma WrapKeepsParity(x: int)
    ensures IsEven(WrapInt(x)) <==> IsEven(x)
  {
    var r := WrapInt(x);
    var k := (x - r) / INT_RANGE;
    assert x == r + k * INT_RANGE;
    assert x == r + 2 * (k * 0x8000_0000);
    EvenShift(r, k * 0x8000_0000);
    IsEvenIsEuclidean(x);
    IsEvenIsEuclidean(r);
  }

  lemma EvenShift(r: int, m: int)
    ensures (r + 2 * m) % 2 == r % 2
  {
  }

  /**
   * Repeated `c++`: `k` increments of `c`, as the unbounded sum narrowed
   * once; `IncrementByStep` shows it is `c++` applied `k` times.
   */
  function IncrementBy(c: Int32, k: nat): Int32 {
    WrapInt(c + k)
  }

  /**
   * `IncrementBy` is `Increment` iterated: no increments leave `c` as it
   * is, and `k + 1` increments are one increment followed by `k` more.
   */
  lemma IncrementByStep(c: Int32, k: nat)
    ensures IncrementBy(c, 0) == c
    ensures IncrementBy(Increment(c), k) == IncrementBy(c, k + 1)
  {
    WrapAdd(c + 1, k);
  }

  /** `c++` executed `k` times, one wrap-checked step after another. */
  function Iterated(c: Int32, k: nat): Int32
    decreases k
  {
    if k == 0 then c else Iterated(Increment(c), k - 1)
  }

  /** The closed form agrees with executing `c++` `k` times. */
  lemma {:induction false} IncrementByIsIterated(c: Int32, k: nat)
    ensures IncrementBy(c, k) == Iterated(c, k)
    decreases k
  {
    if k > 0 {
      IncrementByIsIterated(Increment(c), k - 1);
      WrapAdd(c + 1, k - 1);
    }
  }

  lemma IncrementByShift(c: Int32)
    ensures forall k: nat :: IncrementBy(Increment(c), k) == IncrementBy(c, k + 1)
  {
    forall k: nat
      ensures IncrementBy(Increment(c), k) == IncrementBy(c, k + 1)
    {
      IncrementByStep(c, k);
    }
  }

  /** The parity of `c` after `k` increments flips once per increment. */
  lemma IncrementByParity(c: Int32, k: nat)
    ensures IsEven(IncrementBy(c, k)) <==> (IsEven(c) <==> k % 2 == 0)
  {
    var r := IncrementBy(c, k);
    assert r == WrapInt(c + k);
    SumParity(c, k);
    WrapKeepsParity(c + k);
  }

  lemma SumParity(x: int, k: nat)
    ensures IsEven(x + k) <==> (IsEven(x) <==> k % 2 == 0)
  {
    IsEvenIsEuclidean(x + k);
    IsEvenIsEuclidean(x);
  }

  /** Consecutive increments alternate in parity, the first following `c`'s. */
  lemma IncrementByAlternates(c: Int32, n: nat)
    ensures IsEven(IncrementBy(c, n)) <==> !IsEven(IncrementBy(c, n + 1))
    ensures IsEven(IncrementBy(c, n)) <==> (IsEven(c) <==> n % 2 == 0)
  {
    IncrementByParity(c, n);
    IncrementByParity(c, n + 1);
    NextParity(n);
  }

  lemma NextParity(n: nat)
    ensures n % 2 == 0 <==> (n + 1) % 2 != 0
  {
  }

  const MAX_SECONDS: int := LONG_MAX / 1000
  const MAX_MINUTES: int := LONG_MAX / 60000

  /**
   * `TimeUnit.SECONDS.toMillis(d)`: multiplies by 1000 and saturates at the
   * `Long` bounds instead of overflowing.
   */
  function SecondsToMillis(d: Int64): (r: Int64)
    ensures -MAX_SECONDS <= d <= MAX_SECONDS ==> r == d * 1000
    ensures d > MAX_SECONDS ==> r == LONG_MAX
    ensures d < -MAX_SECONDS ==> r == LONG_MIN
    ensures d > 0 <==> r > 0
  {
    if d > MAX_SECONDS then LONG_MAX
    else if d < -MAX_SECONDS then LONG_MIN
    else d * 1000
  }

  /** `TimeUnit.MINUTES.toMillis(d)`, saturating like `SecondsToMillis`. */
  function MinutesToMillis(d: Int64): (r: Int64)
    ensures -MAX_MINUTES <= d <= MAX_MINUTES ==> r == d * 60000
    ensures d > MAX_MINUTES ==> r == LONG_MAX
    ensures d < -MAX_MINUTES ==> r == LONG_MIN
    ensures d > 0 <==> r > 0
  {
    if d > MAX_MINUTES then LONG_MAX
    else if d < -MAX_MINUTES then LONG_MIN
    else d * 60000
  }

  predicate IsDigit(c: char) {
    '0' <= c <= '9'
  }

  /** A non-empty run of ASCII decimal digits. */
  predicate Digits(ds: string) {
    |ds| > 0 && forall k :: 0 <= k < |ds| ==> IsDigit(ds[k])
  }

  /** The value of a string of decimal digits; `None` when some character is not a digit. */
  function DecimalValue(ds: string): (r: Option<nat>)
    ensures r.Some? <==> forall k :: 0 <= k < |ds| ==> IsDigit(ds[k])
  {
    if |ds| == 0 then Some(0)
    else if !IsDigit(ds[|ds| - 1]) then None
    else match DecimalValue(ds[..|ds| - 1])
      case None => None
      case Some(v) => Some(v * 10 + (ds[|ds| - 1] - '0') as nat)
  }

  /** A leading zero does not change the value of a digit string. */
  lemma {:induction false} DecimalValueLeadingZero(ds: string)
    requires forall k :: 0 <= k < |ds| ==> IsDigit(ds[k])
    ensures DecimalValue("0" + ds) == DecimalValue(ds)
    decreases |ds|
  {
    var zs := "0" + ds;
    if |ds| == 0 {
      assert zs[..0] == "";
    } else {
      var n := |ds| - 1;
      assert zs[..|zs| - 1] == "0" + ds[..n];
      assert zs[|zs| - 1] == ds[n];
      DecimalValueLeadingZero(ds[..n]);
    }
  }

  /** The shortest decimal spelling of `n`. */
  function Decimal(n: nat): (ds: string)
    ensures |ds| > 0 && IsDigit(ds[0])
  {
    var last := ['0' + (n % 10) as char];
    if n < 10 then last else Decimal(n / 10) + last
  }

  lemma {:induction false} DecimalValueOfDecimal(n: nat)
    ensures DecimalValue(Decimal(n)) == Some(n)
  {
    var ds := Decimal(n);
    assert ds[..|ds| - 1] == if n < 10 then [] else Decimal(n / 10);
    if n >= 10 {
      DecimalValueOfDecimal(n / 10);
    }
  }

  /**
   * `String.toInt()` (that is `Integer.parseInt(s, 10)`): an optional sign
   * followed by at least one digit, within the `Int` range; `None` where the
   * JVM throws `NumberFormatException`.
   */
  function ParseInt(s: string): (r: Option<Int32>)
    ensures r.Some? <==>
      || (Digits(s) && DecimalValue(s).value <= INT_MAX)
      || (|s| > 1 && s[0] == '+' && Digits(s[1..]) && DecimalValue(s[1..]).value <= INT_MAX)
      || (|s| > 1 && s[0] == '-' && Digits(s[1..]) && DecimalValue(s[1..]).value <= -INT_MIN)
    ensures r.Some? && s[0] != '-' && s[0] != '+' ==> DecimalValue(s) == Some(r.value)
    ensures r.Some? && s[0] == '-' ==> DecimalValue(s[1..]).Some? && DecimalValue(s[1..]).value == -(r.value as int)
    ensures r.Some? && s[0] == '+' ==> DecimalValue(s[1..]) == Some(r.value)
  {
    if |s| == 0 then None
    else if s[0] == '-' || s[0] == '+' then
      if |s| == 1 then None
      else match DecimalValue(s[1..])
        case None => None
        case Some(v) =>
          var signed: int := if s[0] == '-' then -(v as int) else v;
          if INT_MIN <= signed <= INT_MAX then Some(signed) else None
    else match DecimalValue(s)
      case None => None
      case Some(v) => if v <= INT_MAX then Some(v) else None
  }

  /**
   * What `toInt()` accepts and rejects: either sign and leading zeros are
   * accepted; a bare sign, an empty string and a stray character are not.
   */
  lemma ParseIntExamples()
    ensures ParseInt("-5") == Some(-5)
    ensures ParseInt("+5") == Some(5)
    ensures ParseInt("007") == Some(7)
    ensures ParseInt("-") == None
    ensures ParseInt("") == None
    ensures ParseInt("1a") == None
  {
    assert "007"[..2] == "00" && "00"[..1] == "0" && "0"[..0] == "";
  }

  /**
   * The accepted range is exactly that of an `Int`: a decimal `n` parses
   * when `n <= INT_MAX`, with a '+' likewise, and with a '-' when
   * `-n >= INT_MIN`, always to the signed value.
   */
  lemma ParseIntRange(n: nat)
    ensures ParseInt(Decimal(n)) == if n <= INT_MAX then Some(n) else None
    ensures ParseInt("+" + Decimal(n)) == if n <= INT_MAX then Some(n) else None
    ensures ParseInt("-" + Decimal(n)) == if n <= -INT_MIN then Some(-(n as int)) else None
  {
    DecimalValueOfDecimal(n);
    assert ("+" + Decimal(n))[1..] == Decimal(n);
    assert ("-" + Decimal(n))[1..] == Decimal(n);
  }
}

=== FILE: loops.dfy ===
/**
 * The `while (isActive) { delay(d); body() }` coroutine shared by the timer
 * and the refresh controller, on discrete millisecond time. The body runs
 * without consuming time, so after waking at `w` the next delay ends at
 * `w + d`, with `d` read when that delay starts.
 */
module Loops {

  /** One launched loop: when its current delay ends, and whether it still runs. */
  datatype Loop = Loop(nextWake: nat, active: bool)

  /** `jobControl.job.cancelChildren()`: every loop launched from the scope stops; none is removed. */
  function CancelAll(loops: seq<Loop>): (r: seq<Loop>)
    ensures |r| == |loops|
    ensures forall j :: 0 <= j < |r| ==> !r[j].active && r[j].nextWake == loops[j].nextWake
  {
    seq(|loops|, j requires 0 <= j < |loops| => loops[j].(active := false))
  }

  /**
   * The times at which a loop whose delay ends at `next`, re-armed with
   * `delay` after every wake, wakes up to and including `until`.
   */
  function Wakes(next: nat, until: nat, delay: nat): (w: seq<nat>)
    requires delay > 0
    ensures |w| > 0 <==> next <= until
    decreases if next <= until then until + 1 - next else 0
  {
    if next > until then [] else [next] + Wakes(next + delay, until, delay)
  }

  /** When that loop's delay ends after it has run up to `until`. */
  function WakeAfter(next: nat, until: nat, delay: nat): (r: nat)
    requires delay > 0
    ensures r > until && r >= next
    decreases if next <= until then until + 1 - next else 0
  {
    if next > until then next else WakeAfter(next + delay, until, delay)
  }

  /** A loop due by `until` wakes at `next` first and then carries on from `next + delay`. */
  lemma WakesFirst(next: nat, until: nat, delay: nat)
    requires delay > 0 && next <= until
    ensures Wakes(next, until, delay) == [next] + Wakes(next + delay, until, delay)
    ensures WakeAfter(next, until, delay) == WakeAfter(next + delay, until, delay)
  {
  }

  /**
   * The `k`-th wake is `k` full delays after `next`, and the delay pending
   * afterwards ends one delay after the last wake.
   */
  lemma {:induction false} WakesAreEvenlySpaced(next: nat, until: nat, delay: nat)
    requires delay > 0
    ensures var w := Wakes(next, until, delay);
      && (forall k :: 0 <= k < |w| ==> w[k] == next + k * delay <= until)
      && WakeAfter(next, until, delay) == next + |w| * delay
    decreases if next <= until then until + 1 - next else 0
  {
    if next <= until {
      var w := Wakes(next, until, delay);
      var rest := Wakes(next + delay, until, delay);
      assert w == [next] + rest;
      WakesAreEvenlySpaced(next + delay, until, delay);
      forall k | 1 <= k < |w|
        ensures w[k] == next + k * delay
      {
        assert w[k] == rest[k - 1] == next + delay + (k - 1) * delay;
      }
      assert (|rest| + 1) * delay == |rest| * delay + delay;
    }
  }

  /**
   * The number of wakes up to `until`: one at `next`, then one per further
   * full `delay` (so the count is `(until - next) / delay + 1`).
   */
  lemma {:induction false} WakesCount(next: nat, until: nat, delay: nat)
    requires delay > 0
    ensures var n := |Wakes(next, until, delay)|;
      next <= until ==> (n - 1) * delay <= until - next < n * delay
    decreases if next <= until then until + 1 - next else 0
  {
    if next <= until {
      var n := |Wakes(next, until, delay)|;
      var m := |Wakes(next + delay, until, delay)|;
      assert n == m + 1;
      WakesCount(next + delay, until, delay);
      if next + delay <= until {
        assert (m - 1) * delay <= until - next - delay < m * delay;
        assert (n - 1) * delay == (m - 1) * delay + delay;
        assert n * delay == m * delay + delay;
      }
    }
  }

  /**
   * Running up to `mid` and then on to `until` wakes at the same times, and
   * leaves the same pending delay, as running up to `until` at once.
   */
  lemma {:induction false} WakesSplit(next: nat, mid: nat, until: nat, delay: nat)
    requires delay > 0 && mid <= until
    ensures Wakes(next, until, delay) == Wakes(next, mid, delay) + Wakes(WakeAfter(next, mid, delay), until, delay)
    ensures WakeAfter(WakeAfter(next, mid, delay), until, delay) == WakeAfter(next, until, delay)
    decreases if next <= until then until + 1 - next else 0
  {
    if next <= mid {
      assert Wakes(next, mid, delay) == [next] + Wakes(next + delay, mid, delay);
      WakesSplit(next + delay, mid, until, delay);
    }
  }
}

=== FILE: mapbox_timer.dfy ===
/**
 * `MapboxTimer`: launches loops that sleep `routeRefreshInterval`
 * milliseconds and then run their lambda, until cancelled. Each job records
 * the times at which its lambda was invoked. The interval is read when each delay
 * starts, so changing it affects only delays started afterwards.
 */
module MapboxTimer {
  import opened Jvm
  import opened Loops

  /** A job returned by `startRouteRefresh`, with the times its lambda was invoked. */
  datatype Job = Job(loop: Loop, invocations: seq<nat>)

  /** The timer: the clock, the current interval, and every job it launched. */
  datatype Timer = Timer(now: nat, routeRefreshInterval: Int64, jobs: seq<Job>)

  /** Every running job's delay ends in the future. */
  predicate Valid(t: Timer) {
    forall j :: 0 <= j < |t.jobs| && t.jobs[j].loop.active ==> t.jobs[j].loop.nextWake > t.now
  }

  /** A new timer: one-minute interval, no jobs. */
  function NewTimer(): (t: Timer)
    ensures t.routeRefreshInterval == 60000 && t.jobs == [] && Valid(t)
  {
    Timer(0, MinutesToMillis(1), [])
  }

  /** Assigning `routeRefreshInterval`: pending delays keep the length they started with. */
  function SetRouteRefreshInterval(t: Timer, interval: Int64): (r: Timer)
    ensures r.jobs == t.jobs && r.now == t.now && r.routeRefreshInterval == interval
  {
    t.(routeRefreshInterval := interval)
  }

  /**
   * `startRouteRefresh`: a new job whose first delay, of the current
   * interval, starts now; returns the job's index as its handle.
   */
  function StartRouteRefresh(t: Timer): (r: (Timer, nat))
    requires t.routeRefreshInterval > 0
    ensures r.1 == |t.jobs| && |r.0.jobs| == |t.jobs| + 1 && r.0.jobs[..|t.jobs|] == t.jobs
    ensures r.0.jobs[r.1] == Job(Loop(t.now + t.routeRefreshInterval, true), [])
    ensures r.0.now == t.now && r.0.routeRefreshInterval == t.routeRefreshInterval
    ensures Valid(t) ==> Valid(r.0)
  {
    var job := Job(Loop(t.now + t.routeRefreshInterval, true), []);
    (t.(jobs := t.jobs + [job]), |t.jobs|)
  }

  /** `stopJobs`: every job launched so far stops; their records stay. */
  function StopJobs(t: Timer): (r: Timer)
    ensures r.now == t.now && r.routeRefreshInterval == t.routeRefreshInterval && |r.jobs| == |t.jobs|
    ensures forall j :: 0 <= j < |r.jobs| ==>
      !r.jobs[j].loop.active && r.jobs[j].invocations == t.jobs[j].invocations
    ensures Valid(r)
  {
    var stopped := CancelAll(seq(|t.jobs|, j requires 0 <= j < |t.jobs| => t.jobs[j].loop));
    t.(jobs := seq(|t.jobs|, j requires 0 <= j < |t.jobs| => t.jobs[j].(loop := stopped[j])))
  }

  /** `cancel()` on the `Job` handle `id`: that job stops, no other. */
  function CancelJob(t: Timer, id: nat): (r: Timer)
    ensures r.now == t.now && r.routeRefreshInterval == t.routeRefreshInterval && |r.jobs| == |t.jobs|
    ensures forall j :: 0 <= j < |r.jobs| && j != id ==> r.jobs[j] == t.jobs[j]
    ensures id < |t.jobs| ==> !r.jobs[id].loop.active && r.jobs[id].invocations == t.jobs[id].invocations
    ensures Valid(t) ==> Valid(r)
  {
    if id < |t.jobs| then
      t.(jobs := t.jobs[id := t.jobs[id].(loop := t.jobs[id].loop.(active := false))])
    else t
  }

  /** One job run up to `until` with every delay `delay` long; a stopped job does nothing. */
  function RunJob(job: Job, until: nat, delay: nat): Job
    requires delay > 0
  {
    if !job.loop.active then job
    else
      var next := job.loop.nextWake;
      Job(Loop(WakeAfter(next, until, delay), true), job.invocations + Wakes(next, until, delay))
  }

  /**
   * `d` milliseconds pass. Every running job's lambda runs at each wake up
   * to and including `now + d`, each delay lasting the current interval;
   * stopped jobs never run.
   */
  function AdvanceTimeBy(t: Timer, d: nat): (r: Timer)
    requires t.routeRefreshInterval > 0
    ensures r.now == t.now + d && r.routeRefreshInterval == t.routeRefreshInterval
    ensures |r.jobs| == |t.jobs|
    ensures forall j :: 0 <= j < |r.jobs| ==> r.jobs[j] == RunJob(t.jobs[j], t.now + d, t.routeRefreshInterval)
    ensures Valid(r)
  {
    var until := t.now + d;
    Timer(until, t.routeRefreshInterval,
          seq(|t.jobs|, j requires 0 <= j < |t.jobs| => RunJob(t.jobs[j], until, t.routeRefreshInterval)))
  }

  /** How many times a job's lambda was invoked. */
  function Invocations(t: Timer, id: nat): nat
    requires id < |t.jobs|
  {
    |t.jobs[id].invocations|
  }

  // ---------------------------------------------------------------------
  // Properties

  /**
   * A running job whose delay ends at `next` runs `(now + d - next) / d' + 1`
   * more times if `next <= now + d` and not at all otherwise, `d'` being the
   * interval; the runs are at `next`, `next + d'`, ...
   */
  lemma InvocationCount(t: Timer, d: nat, id: nat)
    requires t.routeRefreshInterval > 0 && id < |t.jobs| && t.jobs[id].loop.active
    ensures var next := t.jobs[id].loop.nextWake;
      var until := t.now + d;
      var delay := t.routeRefreshInterval;
      var added := Invocations(AdvanceTimeBy(t, d), id) - Invocations(t, id);
      && (next > until ==> added == 0)
      && (next <= until ==> (added - 1) * delay <= until - next < added * delay)
      && (forall k :: 0 <= k < added ==>
            AdvanceTimeBy(t, d).jobs[id].invocations[Invocations(t, id) + k] == next + k * delay)
  {
    var next := t.jobs[id].loop.nextWake;
    WakesCount(next, t.now + d, t.routeRefreshInterval);
    WakesAreEvenlySpaced(next, t.now + d, t.routeRefreshInterval);
  }

  /** Running a job up to `mid` and then up to `until` is running it up to `until`. */
  lemma RunJobSplit(job: Job, mid: nat, until: nat, delay: nat)
    requires delay > 0 && mid <= until
    ensures RunJob(RunJob(job, mid, delay), until, delay) == RunJob(job, until, delay)
  {
    if job.loop.active {
      var next := job.loop.nextWake;
      var after := WakeAfter(next, mid, delay);
      var early := job.invocations + Wakes(next, mid, delay);
      WakesSplit(next, mid, until, delay);
      assert early + Wakes(after, until, delay) == job.invocations + Wakes(next, until, delay);
    }
  }

  /** With the interval unchanged, letting `d1` and then `d2` pass is letting `d1 + d2` pass. */
  lemma AdvanceIsAdditive(t: Timer, d1: nat, d2: nat)
    requires t.routeRefreshInterval > 0
    ensures AdvanceTimeBy(AdvanceTimeBy(t, d1), d2) == AdvanceTimeBy(t, d1 + d2)
  {
    var a := AdvanceTimeBy(AdvanceTimeBy(t, d1), d2);
    var b := AdvanceTimeBy(t, d1 + d2);
    var delay := t.routeRefreshInterval;
    var mid := AdvanceTimeBy(t, d1);
    forall j | 0 <= j < |t.jobs|
      ensures a.jobs[j] == b.jobs[j]
    {
      assert mid.jobs[j] == RunJob(t.jobs[j], t.now + d1, delay);
      assert a.jobs[j] == RunJob(mid.jobs[j], t.now + d1 + d2, delay);
      RunJobSplit(t.jobs[j], t.now + d1, t.now + d1 + d2, delay);
    }
    assert a.jobs == b.jobs;
  }

  /** After `stopJobs`, no job launched before it ever runs again, however much time passes. */
  lemma StoppedJobsStayStopped(t: Timer, d: nat, id: nat)
    requires t.routeRefreshInterval > 0 && id < |t.jobs|
    ensures AdvanceTimeBy(StopJobs(t), d).jobs[id] == StopJobs(t).jobs[id]
    ensures Invocations(AdvanceTimeBy(StopJobs(t), d), id) == Invocations(t, id)
  {
  }

  /** A job started after `stopJobs` is unaffected by it: it runs on the normal schedule. */
  lemma StartAfterStopRuns(t: Timer, d: nat)
    requires t.routeRefreshInterval > 0
    ensures var (started, id) := StartRouteRefresh(StopJobs(t));
      var later := AdvanceTimeBy(started, d);
      && later.jobs[id].loop.active
      && later.jobs[id].invocations == Wakes(t.now + t.routeRefreshInterval, t.now + d, t.routeRefreshInterval)
  {
  }
}

=== FILE: mapbox_timer_scenarios.dfy ===
/**
 * The timelines of the `MapboxTimer` unit tests, followed through the
 * model: how many times each lambda runs after the stated waits.
 */
module MapboxTimerScenarios {
  import opened Jvm
  import opened Loops
  import opened MapboxTimer

  /** A fresh timer with `interval` assigned and one job started at time 0. */
  function StartedWith(interval: Int64): (r: (Timer, nat))
    requires interval > 0
    ensures r.1 == 0 && r.0.jobs == [Job(Loop(interval, true), [])] && r.0.now == 0
    ensures r.0.routeRefreshInterval == interval
  {
    StartRouteRefresh(SetRouteRefreshInterval(NewTimer(), interval))
  }

  /** Five-minute interval, four minutes pass: the lambda never runs. */
  lemma NotCalledBeforeInterval()
    ensures var (t, id) := StartedWith(MinutesToMillis(5));
      Invocations(AdvanceTimeBy(t, MinutesToMillis(4)), id) == 0
  {
    assert Wakes(300000, 240000, 300000) == [];
  }

  /** Five-minute interval, six minutes pass: the lambda runs once, at five minutes. */
  lemma CalledAfterInterval()
    ensures var (t, id) := StartedWith(MinutesToMillis(5));
      AdvanceTimeBy(t, MinutesToMillis(6)).jobs[id].invocations == [300000]
  {
    assert Wakes(300000, 360000, 300000) == [300000] + Wakes(600000, 360000, 300000);
  }

  /** Five-minute interval, 26 minutes pass: the lambda runs five times. */
  lemma CalledMultipleTimes()
    ensures var (t, id) := StartedWith(MinutesToMillis(5));
      Invocations(AdvanceTimeBy(t, MinutesToMillis(26)), id) == 5
  {
    WakesCount(300000, 1560000, 300000);
  }

  /**
   * One-minute interval for one minute, then ten minutes at a ten-minute
   * interval: the lambda runs at one and at two minutes. The delay pending
   * when the interval changes keeps its one-minute length.
   */
  lemma IntervalChangeTakesEffectAfterPendingDelay()
    ensures var (t, id) := StartedWith(MinutesToMillis(1));
      var t1 := AdvanceTimeBy(t, MinutesToMillis(1));
      var t2 := AdvanceTimeBy(SetRouteRefreshInterval(t1, MinutesToMillis(10)), MinutesToMillis(10));
      t2.jobs[id].invocations == [60000, 120000]
  {
    assert Wakes(60000, 60000, 60000) == [60000] + Wakes(120000, 60000, 60000);
    assert WakeAfter(60000, 60000, 60000) == 120000;
    assert Wakes(120000, 660000, 600000) == [120000] + Wakes(720000, 660000, 600000);
  }

  /** Six minutes, `stopJobs`, thirty more minutes: the lambda was invoked once. */
  lemma StopsWhenCanceled()
    ensures var (t, id) := StartedWith(MinutesToMillis(5));
      var t1 := AdvanceTimeBy(t, MinutesToMillis(6));
      Invocations(AdvanceTimeBy(StopJobs(t1), MinutesToMillis(30)), id) == 1
  {
    assert Wakes(300000, 360000, 300000) == [300000] + Wakes(600000, 360000, 300000);
  }

  /**
   * 5000 ms interval; job 1 starts at 0, job 2 after 5001 ms, then 5001 ms
   * more pass: job 1 has run twice and job 2 once, each on its own phase.
   */
  lemma JobsRunSeparately()
    ensures var (t, id1) := StartedWith(5000);
      var (t1, id2) := StartRouteRefresh(AdvanceTimeBy(t, 5001));
      var t2 := AdvanceTimeBy(t1, 5001);
      && t2.jobs[id1].invocations == [5000, 10000]
      && t2.jobs[id2].invocations == [10001]
  {
    assert Wakes(5000, 5001, 5000) == [5000] + Wakes(10000, 5001, 5000);
    assert WakeAfter(5000, 5001, 5000) == 10000;
    assert Wakes(10000, 10002, 5000) == [10000] + Wakes(15000, 10002, 5000);
    assert Wakes(10001, 10002, 5000) == [10001] + Wakes(15001, 10002, 5000);
  }

  /**
   * Six minutes, `stopJobs`, thirty minutes, a new job, six more minutes:
   * each job's lambda was invoked once, two runs in all.
   */
  lemma StopAndRestart()
    ensures var (t, id1) := StartedWith(MinutesToMillis(5));
      var t1 := AdvanceTimeBy(StopJobs(AdvanceTimeBy(t, MinutesToMillis(6))), MinutesToMillis(30));
      var (t2, id2) := StartRouteRefresh(t1);
      var t3 := AdvanceTimeBy(t2, MinutesToMillis(6));
      && Invocations(t3, id1) == 1
      && Invocations(t3, id2) == 1
      && t3.jobs[id2].invocations == [2460000]
  {
    assert Wakes(300000, 360000, 300000) == [300000] + Wakes(600000, 360000, 300000);
    assert Wakes(2460000, 2520000, 300000) == [2460000] + Wakes(2760000, 2520000, 300000);
  }
}

=== FILE: route_refresh_api.dfy ===
/**
 * `RouteRefreshApi`: the refresh call's parameters, the merge of a partial,
 * leg-indexed annotation response into the original route, and the
 * congestion relabelling driven by the instance's call counter. The counter
 * (a Kotlin `Int`) is threaded explicitly through every function that
 * advances it.
 */
module RouteRefreshApi {
  import opened Wrappers
  import opened Jvm
  import opened Directions

  /** What one refresh needs: credentials, the route, its request UUID and the current leg. */
  datatype RouteRefreshRequest = RouteRefreshRequest(
    accessToken: string,
    originalRoute: DirectionsRoute,
    requestUuid: string,
    legIndex: nat)

  /** The parameters given to the Directions Refresh API builder. */
  datatype RefreshCall = RefreshCall(
    accessToken: string,
    requestId: string,
    legIndex: nat,
    routeIndex: Option<Int32>)

  /** A refresh response body: a route whose legs carry only annotations. */
  datatype RefreshBody = RefreshBody(route: Option<DirectionsRoute>)

  /** What the network reports for a refresh call. */
  datatype RefreshResponse =
    | CallFailed(throwable: string)
    | Responded(body: Option<RefreshBody>)

  /** Why `refresh` threw. */
  datatype RefreshError =
    | RouteIndexNotANumber
    | CallFailure(throwable: string)
    | MalformedResponse

  /**
   * How a `refresh` call ends: with the merged route, with an exception, or
   * never, when the merge throws inside the network callback and the
   * suspended caller is not resumed.
   */
  datatype RefreshOutcome =
    | Refreshed(route: DirectionsRoute)
    | Threw(error: RefreshError)
    | NeverResumed

  /** The relabelling used on an even counter. */
  function Escalate(value: string): (r: string)
    ensures r == "moderate" || r == "heavy"
    ensures r == "moderate" <==> value == "low"
  {
    if value == "low" then "moderate"
    else if value == "moderate" then "heavy"
    else if value == "heavy" then "heavy"
    else "heavy"
  }

  /** The relabelling used on an odd counter. */
  function Deescalate(value: string): (r: string)
    ensures r == "low" || r == "moderate"
    ensures r == "moderate" <==> value == "heavy"
  {
    if value == "moderate" then "low"
    else if value == "heavy" then "moderate"
    else "low"
  }

  /** The value a congestion value gets when the counter reads `counter`. */
  function Relabel(counter: Int32, value: string): string {
    if IsEven(counter) then Escalate(value) else Deescalate(value)
  }

  /**
   * `transformedAnnotation`: advances the counter once and relabels every
   * congestion value by the counter's previous parity; a null annotation or
   * null congestion list stays null, and the other annotation fields are
   * those of `annotation`.
   */
  function TransformedAnnotation(counter: Int32, annotation: Option<LegAnnotation>): (r: (Option<LegAnnotation>, Int32))
    ensures r.1 == Increment(counter)
    ensures r.0.None? <==> annotation.None?
    ensures annotation.Some? ==>
      && r.0.value.(congestion := annotation.value.congestion) == annotation.value
      && (r.0.value.congestion.None? <==> annotation.value.congestion.None?)
      && (annotation.value.congestion.Some? ==>
            var before := annotation.value.congestion.value;
            var after := r.0.value.congestion.value;
            && |after| == |before|
            && forall k :: 0 <= k < |after| ==> after[k] == Relabel(counter, before[k]))
  {
    var relabelled :=
      match annotation
      case None => None
      case Some(a) =>
        Some(a.(congestion :=
          match a.congestion
          case None => None
          case Some(cs) => Some(seq(|cs|, k requires 0 <= k < |cs| => Relabel(counter, cs[k])))));
    (relabelled, Increment(counter))
  }

  /** Leg `leg` with its annotation replaced by the transform of `incoming`'s, at counter `counter`. */
  function RefreshedLeg(leg: RouteLeg, incoming: RouteLeg, counter: Int32): RouteLeg {
    leg.(annotation := TransformedAnnotation(counter, incoming.annotation).0)
  }

  /** The state the merge loop ends in: finished, or thrown on a missing response entry. */
  datatype Splice =
    | Spliced(legs: seq<RouteLeg>, counter: Int32)
    | IndexOutOfBounds(counter: Int32)

  /**
   * The `for (i in currentLegIndex until legs.size)` loop of
   * `mapToDirectionsRoute`, from position `i` on: leg `j` takes response
   * entry `j - legIndex`, relabelled at the counter value it has reached.
   */
  function SpliceFrom(legs: seq<RouteLeg>, incoming: seq<RouteLeg>, legIndex: nat, i: nat, counter: Int32): (r: Splice)
    requires legIndex <= i <= legIndex + |incoming|
    ensures r.Spliced? <==> i >= |legs| || |legs| <= legIndex + |incoming|
    ensures r.Spliced? ==>
      && |r.legs| == |legs|
      && (forall j :: 0 <= j < i && j < |legs| ==> r.legs[j] == legs[j])
      && (forall j :: i <= j < |legs| ==>
            r.legs[j] == RefreshedLeg(legs[j], incoming[j - legIndex], IncrementBy(counter, j - i)))
      && r.counter == IncrementBy(counter, if i < |legs| then |legs| - i else 0)
    ensures r.IndexOutOfBounds? ==> r.counter == IncrementBy(counter, legIndex + |incoming| - i)
    decreases |legs| - i
  {
    if i >= |legs| then Spliced(legs, counter)
    else if i - legIndex >= |incoming| then IndexOutOfBounds(counter)
    else
      var transformed := TransformedAnnotation(counter, incoming[i - legIndex].annotation);
      IncrementByShift(counter);
      SpliceFrom(legs[i := legs[i].(annotation := transformed.0)], incoming, legIndex, i + 1, transformed.1)
  }

  /** How `mapToDirectionsRoute` ends. */
  datatype Merge =
    | Merged(route: DirectionsRoute, counter: Int32)
    | MergeThrew(counter: Int32)

  /**
   * `mapToDirectionsRoute`: the original route with the annotations of legs
   * `legIndex ..` replaced from the response, response entry `j - legIndex`
   * going to leg `j`. Earlier legs, every other leg field and every route
   * field other than the legs are kept. Without original legs, or without
   * response legs, the route comes back as it was and the counter does not
   * move; a response with too few legs makes the loop throw.
   */
  function MapToDirectionsRoute(request: RouteRefreshRequest, annotations: DirectionsRoute, counter: Int32): (r: Merge)
    ensures var original := request.originalRoute;
      original.legs.None? || annotations.legs.None? ==> r == Merged(original, counter)
    ensures r.Merged? ==> r.route.(legs := request.originalRoute.legs) == request.originalRoute
    ensures r.Merged? ==> (r.route.legs.None? <==> request.originalRoute.legs.None?)
    ensures var original := request.originalRoute; var k := request.legIndex;
      original.legs.Some? && annotations.legs.Some? ==>
        var legs := original.legs.value; var incoming := annotations.legs.value;
        && (r.Merged? <==> |legs| <= k + |incoming|)
        && (r.Merged? ==>
              && |r.route.legs.value| == |legs|
              && (forall j :: 0 <= j < k && j < |legs| ==> r.route.legs.value[j] == legs[j])
              && (forall j :: k <= j < |legs| ==>
                    r.route.legs.value[j] == RefreshedLeg(legs[j], incoming[j - k], IncrementBy(counter, j - k)))
              && r.counter == IncrementBy(counter, if k < |legs| then |legs| - k else 0))
        && (r.MergeThrew? ==> r.counter == IncrementBy(counter, |incoming|))
  {
    var original := request.originalRoute;
    match original.legs
    case None => Merged(original, counter)
    case Some(legs) =>
      match annotations.legs
      case None => Merged(original.(legs := Some(legs)), counter)
      case Some(incoming) =>
        match SpliceFrom(legs, incoming, request.legIndex, request.legIndex, counter)
        case Spliced(refreshed, next) => Merged(original.(legs := Some(refreshed)), next)
        case IndexOutOfBounds(next) => MergeThrew(next)
  }

  /**
   * The refresh call's parameters: the route index is passed only when the
   * route has one, and an index that `toInt()` rejects makes `refresh`
   * throw before anything is sent (`None`).
   */
  function BuildCall(request: RouteRefreshRequest): (r: Option<RefreshCall>)
    ensures var index := request.originalRoute.routeIndex;
      r.None? <==> index.Some? && ParseInt(index.value).None?
    ensures r.Some? ==>
      && r.value.accessToken == request.accessToken
      && r.value.requestId == request.requestUuid
      && r.value.legIndex == request.legIndex
      && (r.value.routeIndex.Some? <==> request.originalRoute.routeIndex.Some?)
      && (r.value.routeIndex.Some? ==> ParseInt(request.originalRoute.routeIndex.value) == r.value.routeIndex)
  {
    var call := RefreshCall(request.accessToken, request.requestUuid, request.legIndex, None);
    match request.originalRoute.routeIndex
    case None => Some(call)
    case Some(index) =>
      match ParseInt(index)
      case None => None
      case Some(i) => Some(call.(routeIndex := Some(i)))
  }

  /**
   * `refresh`: sends the call and turns the network's answer into the merged
   * route. A failed call or a response without a body or route is an
   * exception; only a merge moves the counter.
   */
  function Refresh(counter: Int32, request: RouteRefreshRequest, respond: RefreshCall -> RefreshResponse): (r: (RefreshOutcome, Int32))
    ensures BuildCall(request).None? ==> r == (Threw(RouteIndexNotANumber), counter)
    ensures BuildCall(request).Some? ==>
      var response := respond(BuildCall(request).value);
      && (response.CallFailed? ==> r == (Threw(CallFailure(response.throwable)), counter))
      && (response.Responded? && (response.body.None? || response.body.value.route.None?) ==>
            r == (Threw(MalformedResponse), counter))
      && (response.Responded? && response.body.Some? && response.body.value.route.Some? ==>
            var merge := MapToDirectionsRoute(request, response.body.value.route.value, counter);
            && r.1 == merge.counter
            && (r.0.Refreshed? <==> merge.Merged?)
            && (r.0.Refreshed? ==> r.0.route == merge.route)
            && (r.0.NeverResumed? <==> merge.MergeThrew?))
    ensures r.0.Refreshed? ==> r.0.route.(legs := request.originalRoute.legs) == request.originalRoute
  {
    match BuildCall(request)
    case None => (Threw(RouteIndexNotANumber), counter)
    case Some(call) =>
      match respond(call)
      case CallFailed(throwable) => (Threw(CallFailure(throwable)), counter)
      case Responded(body) =>
        if body.None? || body.value.route.None? then (Threw(MalformedResponse), counter)
        else
          match MapToDirectionsRoute(request, body.value.route.value, counter)
          case Merged(route, next) => (Refreshed(route), next)
          case MergeThrew(next) => (NeverResumed, next)
  }

  /** The network answered with a body that carries a route. */
  predicate Answered(response: RefreshResponse) {
    response.Responded? && response.body.Some? && response.body.value.route.Some?
  }

  /**
   * The answer has fewer legs than the original route has from the current
   * leg on, so the merge loop runs past the end of the response.
   */
  predicate TooFewLegs(request: RouteRefreshRequest, response: RefreshResponse) {
    && Answered(response)
    && request.originalRoute.legs.Some?
    && response.body.value.route.value.legs.Some?
    && |request.originalRoute.legs.value| > request.legIndex + |response.body.value.route.value.legs.value|
  }

  /**
   * How `refresh` ends, by the answer alone: it never returns exactly when
   * the answer has too few legs, returns a route when any other route came
   * back, and throws in every other case (bad route index, failed call,
   * missing body or route).
   */
  lemma RefreshOutcomeKinds(counter: Int32, request: RouteRefreshRequest, respond: RefreshCall -> RefreshResponse)
    ensures var outcome := Refresh(counter, request, respond).0;
      var call := BuildCall(request);
      && (outcome.NeverResumed? <==> call.Some? && TooFewLegs(request, respond(call.value)))
      && (outcome.Refreshed? <==> call.Some? && Answered(respond(call.value)) && !TooFewLegs(request, respond(call.value)))
      && (outcome.Threw? <==> call.None? || !Answered(respond(call.value)))
  {
    if BuildCall(request).Some? {
      var response := respond(BuildCall(request).value);
      if Answered(response) {
        var merge := MapToDirectionsRoute(request, response.body.value.route.value, counter);
        assert merge.MergeThrew? <==> TooFewLegs(request, response);
      }
    }
  }

  // ---------------------------------------------------------------------
  // Properties of the merge

  /** An even counter only yields "moderate" and "heavy"; an odd one only "low" and "moderate". */
  lemma RelabelBounds(counter: Int32, value: string)
    ensures IsEven(counter) ==> Relabel(counter, value) in {"moderate", "heavy"}
    ensures !IsEven(counter) ==> Relabel(counter, value) in {"low", "moderate"}
  {
  }

  /**
   * The relabelling alternates leg by leg: two consecutive replaced legs are
   * transformed at counter values of opposite parity, so exactly one of
   * them is escalated, wrap-around included; the first replaced leg follows
   * the parity the counter had before the merge.
   */
  lemma MergeAlternatesPolicy(request: RouteRefreshRequest, annotations: DirectionsRoute, counter: Int32, j: nat)
    requires request.originalRoute.legs.Some? && annotations.legs.Some?
    requires request.legIndex <= j && j + 1 < |request.originalRoute.legs.value|
    requires MapToDirectionsRoute(request, annotations, counter).Merged?
    ensures var merged := MapToDirectionsRoute(request, annotations, counter).route.legs.value;
      var legs := request.originalRoute.legs.value;
      var incoming := annotations.legs.value;
      var k := request.legIndex;
      var now := IncrementBy(counter, j - k);
      var after := IncrementBy(counter, j + 1 - k);
      && merged[j] == RefreshedLeg(legs[j], incoming[j - k], now)
      && merged[j + 1] == RefreshedLeg(legs[j + 1], incoming[j + 1 - k], after)
      && (IsEven(now) <==> !IsEven(after))
      && (IsEven(now) <==> (IsEven(counter) <==> (j - k) % 2 == 0))
  {
    var k := request.legIndex;
    IncrementByAlternates(counter, j - k);
    assert j + 1 - k == (j - k) + 1;
  }

  /**
   * A refresh that succeeds changes nothing but annotations: the leg count,
   * every leg before the current one, and every non-annotation field of the
   * remaining legs are those of the original route.
   */
  lemma RefreshChangesOnlyAnnotations(counter: Int32, request: RouteRefreshRequest, respond: RefreshCall -> RefreshResponse)
    requires Refresh(counter, request, respond).0.Refreshed?
    requires request.originalRoute.legs.Some?
    ensures var route := Refresh(counter, request, respond).0.route;
      var legs := request.originalRoute.legs.value;
      && route.legs.Some?
      && |route.legs.value| == |legs|
      && (forall j :: 0 <= j < request.legIndex && j < |legs| ==> route.legs.value[j] == legs[j])
      && (forall j :: 0 <= j < |legs| ==> route.legs.value[j].(annotation := legs[j].annotation) == legs[j])
  {
    var legs := request.originalRoute.legs.value;
    var call := BuildCall(request).value;
    var annotations := respond(call).body.value.route.value;
    var merge := MapToDirectionsRoute(request, annotations, counter);
    assert merge.Merged?;
    if annotations.legs.Some? {
      var k := request.legIndex;
      forall j | 0 <= j < |legs|
        ensures merge.route.legs.value[j].(annotation := legs[j].annotation) == legs[j]
      {
        if j >= k {
          var incoming := annotations.legs.value;
          assert merge.route.legs.value[j] == RefreshedLeg(legs[j], incoming[j - k], IncrementBy(counter, j - k));
        }
      }
    }
  }

  /**
   * Three legs, current leg 1, a two-entry response: leg 0 is untouched and
   * legs 1 and 2 carry the transformed annotations of entries 0 and 1; with
   * the counter at 0, entry 0 is escalated and entry 1 de-escalated.
   */
  lemma MergeExample(l0: RouteLeg, l1: RouteLeg, l2: RouteLeg, e0: RouteLeg, e1: RouteLeg, route: DirectionsRoute)
    requires route.legs == Some([l0, l1, l2])
    ensures var request := RouteRefreshRequest("token", route, "uuid", 1);
      var merge := MapToDirectionsRoute(request, route.(legs := Some([e0, e1])), 0);
      && merge == Merged(route.(legs := Some([l0, RefreshedLeg(l1, e0, 0), RefreshedLeg(l2, e1, 1)])), 2)
      && IsEven(0) && !IsEven(1)
  {
    var request := RouteRefreshRequest("token", route, "uuid", 1);
    var merge := MapToDirectionsRoute(request, route.(legs := Some([e0, e1])), 0);
    var legs := merge.route.legs.value;
    assert legs[1] == RefreshedLeg(l1, e0, IncrementBy(0, 0));
    assert legs[2] == RefreshedLeg(l2, e1, IncrementBy(0, 1));
    assert legs == [l0, RefreshedLeg(l1, e0, 0), RefreshedLeg(l2, e1, 1)];
  }
}

=== FILE: route_refresh_controller.dfy ===
/**
 * `RouteRefreshController`: loops that wait `intervalSeconds` converted to
 * milliseconds, then build a refresh request from the trip session, call
 * `RouteRefreshApi.refresh` and hand a successful result to their callback.
 *
 * Time is discrete milliseconds. The trip session and the network are
 * parameters: `trip(t)` is what the session reports at time `t`, and
 * `respond(t)` is how the network answers a refresh call sent at `t`. Every
 * wake is recorded as a `Cycle`, from which the refresh calls and the
 * callback invocations are read off.
 */
module RouteRefreshController {
  import opened Wrappers
  import opened Jvm
  import opened Directions
  import opened Loops
  import opened RouteRefreshApi

  /** What the trip session reports: its active route and the progress along it. */
  datatype TripSnapshot = TripSnapshot(route: Option<DirectionsRoute>, routeProgress: Option<RouteProgress>)

  /** The value handed to the callback of `refreshRoute`. */
  datatype RouteRefresh = RouteRefresh(originalRoute: DirectionsRoute, refreshedRoute: DirectionsRoute)

  /**
   * One wake of loop `job` at time `at`: no request could be built, or
   * `refresh` was called with `request`, while the API's call counter stood
   * at `counter`, and ended with `outcome`.
   */
  datatype Cycle =
    | Skipped(at: nat, job: nat)
    | Called(at: nat, job: nat, request: RouteRefreshRequest, counter: Int32, outcome: RefreshOutcome)

  /**
   * The controller: the clock, its two public properties, the loops it
   * launched (in launch order) and the call counter of its `RouteRefreshApi`.
   */
  datatype Controller = Controller(
    now: nat,
    accessToken: string,
    intervalSeconds: Int64,
    loops: seq<Loop>,
    counter: Int32)

  /** The controller after some time has passed, and the wakes in that time, in order. */
  datatype Run = Run(controller: Controller, cycles: seq<Cycle>)

  /**
   * A new controller over a new `RouteRefreshApi`: empty token, no loops.
   * The `intervalSeconds` default is `SECONDS.toMillis(30)`, that is 30000.
   */
  function NewController(): (c: Controller)
    ensures c.now == 0 && c.accessToken == "" && c.loops == [] && c.counter == 0
    ensures c.intervalSeconds == 30000
  {
    Controller(0, "", SecondsToMillis(30), [], 0)
  }

  /** The length of every delay: `intervalSeconds` read as seconds. */
  function DelayMillis(c: Controller): (d: Int64)
    ensures c.intervalSeconds > 0 <==> d > 0
    ensures 0 < c.intervalSeconds <= MAX_SECONDS ==> d == c.intervalSeconds * 1000
  {
    SecondsToMillis(c.intervalSeconds)
  }

  /** The default interval, converted a second time, makes every delay 30,000 seconds long. */
  lemma DefaultDelay()
    ensures DelayMillis(NewController()) == 30_000_000
  {
  }

  function SetAccessToken(c: Controller, token: string): (r: Controller)
    ensures r.accessToken == token && r.(accessToken := c.accessToken) == c
  {
    c.(accessToken := token)
  }

  /** Assigning `intervalSeconds`: pending delays keep the length they started with. */
  function SetIntervalSeconds(c: Controller, seconds: Int64): (r: Controller)
    ensures r.loops == c.loops && r.intervalSeconds == seconds && r.(intervalSeconds := c.intervalSeconds) == c
  {
    c.(intervalSeconds := seconds)
  }

  /** `routeProgress?.currentLegProgress()?.legIndex() ?: 0`. */
  function CurrentLegIndex(progress: Option<RouteProgress>): (k: nat)
    ensures progress.None? || progress.value.currentLegProgress.None? ==> k == 0
    ensures progress.Some? && progress.value.currentLegProgress.Some? ==>
      k == progress.value.currentLegProgress.value.legIndex
  {
    match progress
    case None => 0
    case Some(p) =>
      match p.currentLegProgress
      case None => 0
      case Some(leg) => leg.legIndex
  }

  /**
   * `buildRequest`: a request exactly when the token is non-empty, the
   * session has a route, and that route's options carry a non-empty request
   * UUID.
   */
  function BuildRequest(accessToken: string, trip: TripSnapshot): (r: Option<RouteRefreshRequest>)
    ensures r.Some? <==>
      && accessToken != ""
      && trip.route.Some?
      && trip.route.value.routeOptions.Some?
      && trip.route.value.routeOptions.value.requestUuid.Some?
      && trip.route.value.routeOptions.value.requestUuid.value != ""
    ensures r.Some? ==>
      && r.value.accessToken == accessToken
      && r.value.originalRoute == trip.route.value
      && Some(r.value.requestUuid) == trip.route.value.routeOptions.value.requestUuid
      && r.value.legIndex == CurrentLegIndex(trip.routeProgress)
  {
    if accessToken == "" then None
    else
      match trip.route
      case None => None
      case Some(route) =>
        match route.routeOptions
        case None => None
        case Some(options) =>
          match options.requestUuid
          case None => None
          case Some(uuid) =>
            if uuid == "" then None
            else Some(RouteRefreshRequest(accessToken, route, uuid, CurrentLegIndex(trip.routeProgress)))
  }

  /** A cycle whose `refresh` call never returned: its loop is stuck for good. */
  predicate Stalled(cycle: Cycle) {
    cycle.Called? && cycle.outcome.NeverResumed?
  }

  /**
   * The callback invocation a cycle makes: one exactly when `refresh`
   * returned a route, pairing the route the request was built from with it.
   * A thrown error is swallowed (`callRefreshRoute` returns null).
   */
  function Delivery(cycle: Cycle): (r: Option<RouteRefresh>)
    ensures r.Some? <==> cycle.Called? && cycle.outcome.Refreshed?
    ensures r.Some? ==>
      r.value.originalRoute == cycle.request.originalRoute && r.value.refreshedRoute == cycle.outcome.route
  {
    if cycle.Called? && cycle.outcome.Refreshed? then
      Some(RouteRefresh(cycle.request.originalRoute, cycle.outcome.route))
    else None
  }

  /**
   * A cycle agrees with the session and the network: it was skipped exactly
   * when no request could be built at its time, its request is the one
   * built then, its outcome is the one the network's answer leads to, and
   * a returned route is the original merged with the answer's annotations
   * at the cycle's counter.
   */
  predicate Consistent(cycle: Cycle, accessToken: string, trip: nat -> TripSnapshot,
                       respond: nat -> RefreshCall -> RefreshResponse)
  {
    match cycle
    case Skipped(at, _) => BuildRequest(accessToken, trip(at)).None?
    case Called(at, _, request, counter, outcome) =>
      var call := BuildCall(request);
      && BuildRequest(accessToken, trip(at)) == Some(request)
      && (outcome.NeverResumed? <==> call.Some? && TooFewLegs(request, respond(at)(call.value)))
      && (outcome.Refreshed? <==>
            call.Some? && Answered(respond(at)(call.value)) && !TooFewLegs(request, respond(at)(call.value)))
      && (outcome.Refreshed? ==>
            outcome.route == MapToDirectionsRoute(request, respond(at)(call.value).body.value.route.value, counter).route)
  }

  /**
   * `refreshRoute`: launches a loop whose first delay, of the current
   * interval, starts now; returns the loop's index as its `Job` handle.
   * A non-positive interval would make the loop spin without time passing.
   */
  function RefreshRoute(c: Controller): (r: (Controller, nat))
    requires c.intervalSeconds > 0
    ensures r.1 == |c.loops| && r.0.loops == c.loops + [Loop(c.now + DelayMillis(c), true)]
    ensures r.0.(loops := c.loops) == c
  {
    (c.(loops := c.loops + [Loop(c.now + DelayMillis(c), true)]), |c.loops|)
  }

  /** `stop`: every loop launched so far stops. */
  function Stop(c: Controller): (r: Controller)
    ensures |r.loops| == |c.loops| && forall j :: 0 <= j < |r.loops| ==> !r.loops[j].active
    ensures r.(loops := c.loops) == c
  {
    c.(loops := CancelAll(c.loops))
  }

  /** `cancel()` on the `Job` handle `id`: that loop stops, no other. */
  function CancelJob(c: Controller, id: nat): (r: Controller)
    ensures |r.loops| == |c.loops| && r.(loops := c.loops) == c
    ensures forall j :: 0 <= j < |c.loops| && j != id ==> r.loops[j] == c.loops[j]
    ensures id < |c.loops| ==> !r.loops[id].active
  {
    if id < |c.loops| then c.(loops := c.loops[id := c.loops[id].(active := false)]) else c
  }

  /**
   * Loop `i` wakes: the body builds a request from the session as it is
   * now, calls `refresh` if it got one, and then the next delay starts,
   * with the interval as it is now. A call that never returns leaves the
   * loop suspended for good.
   */
  function Fire(c: Controller, i: nat, trip: nat -> TripSnapshot, respond: nat -> RefreshCall -> RefreshResponse): (r: (Controller, Cycle))
    requires i < |c.loops| && c.loops[i].active && c.intervalSeconds > 0
    ensures r.0.now == c.loops[i].nextWake
    ensures r.0.accessToken == c.accessToken && r.0.intervalSeconds == c.intervalSeconds
    ensures |r.0.loops| == |c.loops| && r.0.loops == c.loops[i := r.0.loops[i]]
    ensures r.1.at == c.loops[i].nextWake && r.1.job == i
    ensures r.0.loops[i].active <==> !Stalled(r.1)
    ensures r.0.loops[i].active ==> r.0.loops[i].nextWake == c.loops[i].nextWake + DelayMillis(c)
  {
    var at := c.loops[i].nextWake;
    var rearmed := Loop(at + DelayMillis(c), true);
    match BuildRequest(c.accessToken, trip(at))
    case None =>
      (c.(now := at, loops := c.loops[i := rearmed]), Skipped(at, i))
    case Some(request) =>
      var result := Refresh(c.counter, request, respond(at));
      var loop := if result.0.NeverResumed? then Loop(at, false) else rearmed;
      (c.(now := at, loops := c.loops[i := loop], counter := result.1), Called(at, i, request, c.counter, result.0))
  }

  /**
   * The wake `Fire` records agrees with the session and the network, a
   * call is recorded at the counter the controller had and leaves the
   * counter where that `refresh` left it, so the next call's relabelling
   * continues from this one; a skipped wake leaves the counter alone.
   */
  lemma FireIsConsistent(c: Controller, i: nat, trip: nat -> TripSnapshot, respond: nat -> RefreshCall -> RefreshResponse)
    requires i < |c.loops| && c.loops[i].active && c.intervalSeconds > 0
    ensures var r := Fire(c, i, trip, respond);
      && Consistent(r.1, c.accessToken, trip, respond)
      && (r.1.Skipped? ==> r.0.counter == c.counter)
      && (r.1.Called? ==> r.1.counter == c.counter)
      && (r.1.Called? ==>
            r.0.counter == Refresh(c.counter, r.1.request, respond(r.1.at)).1
            && r.1.outcome == Refresh(c.counter, r.1.request, respond(r.1.at)).0)
  {
    var at := c.loops[i].nextWake;
    match BuildRequest(c.accessToken, trip(at))
    case None =>
    case Some(request) =>
      RefreshOutcomeKinds(c.counter, request, respond(at));
  }

  /** Whether a loop still has a wake due at or before `until`. */
  predicate IsDue(l: Loop, until: nat) {
    l.active && l.nextWake <= until
  }

  /**
   * The loop that wakes first: the due loop with the earliest wake, the one
   * launched first among equals; `None` when no loop is due.
   */
  function EarliestDue(loops: seq<Loop>, until: nat): (r: Option<nat>)
    ensures r.None? <==> forall j :: 0 <= j < |loops| ==> !IsDue(loops[j], until)
    ensures r.Some? ==>
      && r.value < |loops| && IsDue(loops[r.value], until)
      && (forall j :: 0 <= j < |loops| && IsDue(loops[j], until) ==> loops[r.value].nextWake <= loops[j].nextWake)
      && (forall j :: 0 <= j < r.value && IsDue(loops[j], until) ==> loops[r.value].nextWake < loops[j].nextWake)
  {
    if |loops| == 0 then None
    else
      var n := |loops| - 1;
      var earlier := EarliestDue(loops[..n], until);
      assert forall j :: 0 <= j < n ==> loops[..n][j] == loops[j];
      if IsDue(loops[n], until) && (earlier.None? || loops[n].nextWake < loops[earlier.value].nextWake)
      then Some(n)
      else earlier
  }

  /** How much waking a loop still has ahead of it before `until`. */
  function Due(l: Loop, until: nat): nat {
    if IsDue(l, until) then until + 1 - l.nextWake else 0
  }

  /** The termination measure of `RunUntil`. */
  function Pending(loops: seq<Loop>, until: nat): nat {
    if |loops| == 0 then 0 else Pending(loops[..|loops| - 1], until) + Due(loops[|loops| - 1], until)
  }

  /** Putting back a loop with less waking ahead of it lowers the measure. */
  lemma {:induction false} PendingDecreases(loops: seq<Loop>, i: nat, l: Loop, until: nat)
    requires i < |loops| && Due(l, until) < Due(loops[i], until)
    ensures Pending(loops[i := l], until) < Pending(loops, until)
    decreases |loops|
  {
    var n := |loops| - 1;
    var updated := loops[i := l];
    if i == n {
      assert updated[..n] == loops[..n];
    } else {
      assert updated[..n] == loops[..n][i := l];
      PendingDecreases(loops[..n], i, l, until);
    }
  }

  /** Firing a due loop lowers the measure. */
  lemma FireDecreases(c: Controller, i: nat, until: nat, trip: nat -> TripSnapshot,
                      respond: nat -> RefreshCall -> RefreshResponse)
    requires c.intervalSeconds > 0 && i < |c.loops| && IsDue(c.loops[i], until)
    ensures Pending(Fire(c, i, trip, respond).0.loops, until) < Pending(c.loops, until)
  {
    var next := Fire(c, i, trip, respond).0;
    PendingDecreases(c.loops, i, next.loops[i], until);
  }

  /**
   * Lets the loops run up to and including `until`, the earliest-due loop
   * first, until every loop that still runs waits past `until`.
   */
  function RunUntil(c: Controller, until: nat, trip: nat -> TripSnapshot, respond: nat -> RefreshCall -> RefreshResponse): (r: Run)
    requires c.intervalSeconds > 0
    ensures r.controller.accessToken == c.accessToken && r.controller.intervalSeconds == c.intervalSeconds
    ensures |r.controller.loops| == |c.loops|
    ensures forall j :: 0 <= j < |r.controller.loops| ==> !IsDue(r.controller.loops[j], until)
    decreases Pending(c.loops, until)
  {
    match EarliestDue(c.loops, until)
    case None => Run(c, [])
    case Some(i) =>
      var fired := Fire(c, i, trip, respond);
      FireDecreases(c, i, until, trip, respond);
      var rest := RunUntil(fired.0, until, trip, respond);
      Run(rest.controller, [fired.1] + rest.cycles)
  }

  /**
   * Time passes up to `until` (the test dispatcher's `advanceTimeBy`, with
   * the target time given instead of the step).
   */
  function AdvanceTo(c: Controller, until: nat, trip: nat -> TripSnapshot, respond: nat -> RefreshCall -> RefreshResponse): (r: Run)
    requires c.intervalSeconds > 0 && c.now <= until
    ensures r.controller.now == until
    ensures r.controller.accessToken == c.accessToken && r.controller.intervalSeconds == c.intervalSeconds
    ensures |r.controller.loops| == |c.loops|
    ensures forall j :: 0 <= j < |c.loops| && r.controller.loops[j].active ==> r.controller.loops[j].nextWake > until
  {
    var run := RunUntil(c, until, trip, respond);
    run.(controller := run.controller.(now := until))
  }

  /** The times of a run of cycles. */
  function Times(cycles: seq<Cycle>): (ts: seq<nat>)
    ensures |ts| == |cycles| && forall k :: 0 <= k < |ts| ==> ts[k] == cycles[k].at
  {
    seq(|cycles|, k requires 0 <= k < |cycles| => cycles[k].at)
  }

  // ---------------------------------------------------------------------
  // Properties

  /**
   * The first step of a run in which loop `i` is the earliest due: it fires,
   * and the run goes on from there.
   */
  lemma FirstWake(c: Controller, i: nat, until: nat, trip: nat -> TripSnapshot,
                  respond: nat -> RefreshCall -> RefreshResponse)
    requires c.intervalSeconds > 0 && EarliestDue(c.loops, until) == Some(i)
    ensures var fired := Fire(c, i, trip, respond);
      var rest := RunUntil(fired.0, until, trip, respond);
      RunUntil(c, until, trip, respond) == Run(rest.controller, [fired.1] + rest.cycles)
  {
  }

  /**
   * Every wake up to `until` agrees with what the session reported and the
   * network answered at its time, and happens no later than `until`.
   */
  lemma {:induction false} CycleIsConsistent(c: Controller, until: nat, trip: nat -> TripSnapshot,
                                             respond: nat -> RefreshCall -> RefreshResponse, k: nat)
    requires c.intervalSeconds > 0 && k < |RunUntil(c, until, trip, respond).cycles|
    ensures var cycle := RunUntil(c, until, trip, respond).cycles[k];
      Consistent(cycle, c.accessToken, trip, respond) && cycle.at <= until
    decreases Pending(c.loops, until)
  {
    var i :| EarliestDue(c.loops, until) == Some(i);
    var fired := Fire(c, i, trip, respond);
    FirstWake(c, i, until, trip, respond);
    if k == 0 {
      FireIsConsistent(c, i, trip, respond);
    } else {
      FireDecreases(c, i, until, trip, respond);
      CycleIsConsistent(fired.0, until, trip, respond, k - 1);
    }
  }

  /** Wakes that never build a request leave the refresh API's counter as it was. */
  lemma {:induction false} SkippedCyclesKeepCounter(c: Controller, until: nat, trip: nat -> TripSnapshot,
                                                    respond: nat -> RefreshCall -> RefreshResponse)
    requires c.intervalSeconds > 0
    ensures var r := RunUntil(c, until, trip, respond);
      (forall k :: 0 <= k < |r.cycles| ==> r.cycles[k].Skipped?) ==> r.controller.counter == c.counter
    decreases Pending(c.loops, until)
  {
    match EarliestDue(c.loops, until)
    case None =>
    case Some(i) =>
      var fired := Fire(c, i, trip, respond);
      var rest := RunUntil(fired.0, until, trip, respond);
      FirstWake(c, i, until, trip, respond);
      FireDecreases(c, i, until, trip, respond);
      SkippedCyclesKeepCounter(fired.0, until, trip, respond);
      FireIsConsistent(c, i, trip, respond);
      var cycles := [fired.1] + rest.cycles;
      if forall k :: 0 <= k < |cycles| ==> cycles[k].Skipped? {
        assert cycles[0] == fired.1;
        assert forall k :: 0 <= k < |rest.cycles| ==> rest.cycles[k] == cycles[k + 1];
      }
  }

  /**
   * With an empty access token no request is ever built: every wake is
   * skipped, the refresh API is never called and its counter never moves,
   * however the session and the network behave.
   */
  lemma NoTokenNeverCalls(c: Controller, until: nat, trip: nat -> TripSnapshot, respond: nat -> RefreshCall -> RefreshResponse)
    requires c.intervalSeconds > 0 && c.now <= until && c.accessToken == ""
    ensures var r := AdvanceTo(c, until, trip, respond);
      && (forall k :: 0 <= k < |r.cycles| ==> r.cycles[k].Skipped? && Delivery(r.cycles[k]).None?)
      && r.controller.counter == c.counter
  {
    var cycles := RunUntil(c, until, trip, respond).cycles;
    forall k | 0 <= k < |cycles|
      ensures cycles[k].Skipped?
    {
      CycleIsConsistent(c, until, trip, respond, k);
    }
    SkippedCyclesKeepCounter(c, until, trip, respond);
  }

  /** After `stop`, no loop launched before it wakes again, however much time passes. */
  lemma StoppedLoopsStaySilent(c: Controller, until: nat, trip: nat -> TripSnapshot, respond: nat -> RefreshCall -> RefreshResponse)
    requires c.intervalSeconds > 0 && c.now <= until
    ensures var r := AdvanceTo(Stop(c), until, trip, respond);
      r.cycles == [] && r.controller.counter == c.counter && r.controller.loops == Stop(c).loops
  {
  }

  /** No cycle in `cycles` left its loop suspended. */
  predicate NoStall(cycles: seq<Cycle>) {
    forall k :: 0 <= k < |cycles| ==> !Stalled(cycles[k])
  }

  /**
   * A loop's cycles followed the schedule `wakes`: they happened at a prefix
   * of it, the loop still runs exactly when none stalled, and a loop still
   * running has woken at every scheduled time and now waits for `after`.
   */
  predicate OnSchedule(cycles: seq<Cycle>, wakes: seq<nat>, loop: Loop, after: nat) {
    && |cycles| <= |wakes| && Times(cycles) == wakes[..|cycles|]
    && (loop.active <==> NoStall(cycles))
    && (loop.active ==> Times(cycles) == wakes && loop.nextWake == after)
  }

  /** A cycle that did not stall, put before cycles on schedule, keeps them on schedule. */
  lemma ScheduleCons(cycle: Cycle, rest: seq<Cycle>, wakes: seq<nat>, loop: Loop, after: nat)
    requires !Stalled(cycle) && OnSchedule(rest, wakes, loop, after)
    ensures OnSchedule([cycle] + rest, [cycle.at] + wakes, loop, after)
  {
    var all := [cycle] + rest;
    assert Times(all) == [cycle.at] + Times(rest);
    assert Times(all) == ([cycle.at] + wakes)[..|all|];
    if NoStall(rest) {
      forall k | 0 <= k < |all|
        ensures !Stalled(all[k])
      {
        if k > 0 {
          assert all[k] == rest[k - 1];
        }
      }
    } else {
      var k :| 0 <= k < |rest| && Stalled(rest[k]);
      assert all[k + 1] == rest[k];
    }
  }

  /** A loop that stops on the first of its scheduled cycles is on schedule. */
  lemma ScheduleStall(cycle: Cycle, wakes: seq<nat>, loop: Loop, after: nat)
    requires Stalled(cycle) && !loop.active
    ensures OnSchedule([cycle], [cycle.at] + wakes, loop, after)
  {
    assert Times([cycle]) == [cycle.at];
    assert Stalled([cycle][0]);
  }

  /**
   * A single loop wakes at `next`, `next + delay`, ... up to `until`, the
   * delay being the current interval in milliseconds, until a refresh call
   * never returns; it is still running afterwards exactly when none of its
   * calls stalled, and then it has woken at every one of those times.
   */
  lemma {:induction false} SingleLoopWakeTimes(c: Controller, until: nat, trip: nat -> TripSnapshot,
                                               respond: nat -> RefreshCall -> RefreshResponse)
    requires c.intervalSeconds > 0 && |c.loops| == 1 && c.loops[0].active
    ensures var r := RunUntil(c, until, trip, respond);
      && |r.controller.loops| == 1
      && OnSchedule(r.cycles, Wakes(c.loops[0].nextWake, until, DelayMillis(c)), r.controller.loops[0],
                    WakeAfter(c.loops[0].nextWake, until, DelayMillis(c)))
  {
    SingleLoopFrom(c, until, trip, respond, c.loops[0].nextWake, DelayMillis(c));
  }

  /** `SingleLoopWakeTimes` with the loop's wake and delay named, for the induction. */
  lemma {:induction false} SingleLoopFrom(c: Controller, until: nat, trip: nat -> TripSnapshot,
                                          respond: nat -> RefreshCall -> RefreshResponse, at: nat, delay: nat)
    requires c.intervalSeconds > 0 && |c.loops| == 1 && c.loops[0] == Loop(at, true) && delay == DelayMillis(c)
    ensures var r := RunUntil(c, until, trip, respond);
      |r.controller.loops| == 1 && OnSchedule(r.cycles, Wakes(at, until, delay), r.controller.loops[0], WakeAfter(at, until, delay))
    decreases Pending(c.loops, until)
  {
    if at <= until {
      assert EarliestDue(c.loops, until) == Some(0);
      var fired := Fire(c, 0, trip, respond);
      var rest := RunUntil(fired.0, until, trip, respond);
      FirstWake(c, 0, until, trip, respond);
      WakesFirst(at, until, delay);
      var wakes := Wakes(at + delay, until, delay);
      var after := WakeAfter(at + delay, until, delay);
      if fired.0.loops[0].active {
        FireDecreases(c, 0, until, trip, respond);
        SingleLoopFrom(fired.0, until, trip, respond, at + delay, delay);
        ScheduleCons(fired.1, rest.cycles, wakes, rest.controller.loops[0], after);
      } else {
        assert EarliestDue(fired.0.loops, until).None?;
        assert rest == Run(fired.0, []);
        ScheduleStall(fired.1, wakes, fired.0.loops[0], after);
      }
    } else {
      assert Times([]) == [];
    }
  }

  /**
   * At time `t` the session yields a request, and the network's answer to it
   * does not leave the call suspended.
   */
  predicate Resumes(accessToken: string, trip: nat -> TripSnapshot, respond: nat -> RefreshCall -> RefreshResponse, t: nat) {
    match BuildRequest(accessToken, trip(t))
    case None => false
    case Some(request) =>
      BuildCall(request).None? || !TooFewLegs(request, respond(t)(BuildCall(request).value))
  }

  /**
   * A single loop whose session always yields a request and whose network
   * never strands a call: `refresh` is called at every wake up to `until`,
   * each time with the request built at that moment, and the loop keeps
   * running on schedule.
   */
  lemma SteadyLoop(c: Controller, until: nat, trip: nat -> TripSnapshot, respond: nat -> RefreshCall -> RefreshResponse)
    requires c.intervalSeconds > 0 && c.now <= until && |c.loops| == 1 && c.loops[0].active
    requires forall t: nat :: Resumes(c.accessToken, trip, respond, t)
    ensures var r := AdvanceTo(c, until, trip, respond);
      && Times(r.cycles) == Wakes(c.loops[0].nextWake, until, DelayMillis(c))
      && r.controller.loops == [Loop(WakeAfter(c.loops[0].nextWake, until, DelayMillis(c)), true)]
      && forall k :: 0 <= k < |r.cycles| ==>
           r.cycles[k].Called? && Some(r.cycles[k].request) == BuildRequest(c.accessToken, trip(r.cycles[k].at))
  {
    var run := RunUntil(c, until, trip, respond);
    SingleLoopWakeTimes(c, until, trip, respond);
    forall k | 0 <= k < |run.cycles|
      ensures run.cycles[k].Called? && !Stalled(run.cycles[k])
      ensures Some(run.cycles[k].request) == BuildRequest(c.accessToken, trip(run.cycles[k].at))
    {
      CycleIsConsistent(c, until, trip, respond, k);
      assert Resumes(c.accessToken, trip, respond, run.cycles[k].at);
    }
  }

  /**
   * When the network never answers with a route, every call ends in an
   * exception that `callRefreshRoute` swallows: no callback runs, and no
   * loop is left suspended.
   */
  lemma FailuresAreSwallowed(c: Controller, until: nat, trip: nat -> TripSnapshot,
                             respond: nat -> RefreshCall -> RefreshResponse)
    requires c.intervalSeconds > 0 && c.now <= until
    requires forall t: nat, call: RefreshCall :: !Answered(respond(t)(call))
    ensures var r := AdvanceTo(c, until, trip, respond);
      forall k :: 0 <= k < |r.cycles| ==>
        (r.cycles[k].Called? ==> r.cycles[k].outcome.Threw?) && Delivery(r.cycles[k]).None?
  {
    var cycles := RunUntil(c, until, trip, respond).cycles;
    forall k | 0 <= k < |cycles|
      ensures cycles[k].Called? ==> cycles[k].outcome.Threw?
    {
      CycleIsConsistent(c, until, trip, respond, k);
    }
  }
}

=== FILE: route_refresh_controller_scenarios.dfy ===
/**
 * The timelines of the `RouteRefreshController` unit tests, followed
 * through the model. The session always reports the same route, whose
 * options carry the request UUID "test_id", and no progress.
 */
module RouteRefreshControllerScenarios {
  import opened Wrappers
  import opened Jvm
  import opened Directions
  import opened Loops
  import opened RouteRefreshApi
  import opened RouteRefreshController

  /** A route like the tests' mock: its options carry the request UUID "test_id". */
  predicate IsTestRoute(route: DirectionsRoute) {
    route.routeOptions.Some? && route.routeOptions.value.requestUuid == Some("test_id")
  }

  /** The session: always `route`, never any progress. */
  function TestTrip(route: DirectionsRoute): nat -> TripSnapshot {
    (t: nat) => TripSnapshot(Some(route), None)
  }

  /** A network that answers every refresh call with `route` itself. */
  function Echo(route: DirectionsRoute): nat -> RefreshCall -> RefreshResponse {
    (t: nat) => (call: RefreshCall) => Responded(Some(RefreshBody(Some(route))))
  }

  /** A network whose every refresh call fails. */
  function Failing(throwable: string): nat -> RefreshCall -> RefreshResponse {
    (t: nat) => (call: RefreshCall) => CallFailed(throwable)
  }

  /** The request every wake builds in these tests. */
  function TestRequest(route: DirectionsRoute): RouteRefreshRequest {
    RouteRefreshRequest("test_access_token", route, "test_id", 0)
  }

  /** The tests' set-up: token "test_access_token", `intervalSeconds` as given, one loop launched at 0. */
  function Launched(seconds: Int64): (r: (Controller, nat))
    requires seconds > 0
    ensures r.1 == 0 && r.0.now == 0 && r.0.accessToken == "test_access_token" && r.0.intervalSeconds == seconds
    ensures r.0.loops == [Loop(SecondsToMillis(seconds), true)]
  {
    RefreshRoute(SetIntervalSeconds(SetAccessToken(NewController(), "test_access_token"), seconds))
  }

  /** With the test route, every wake builds `TestRequest`. */
  lemma TestRouteBuildsRequest(route: DirectionsRoute, t: nat)
    requires IsTestRoute(route)
    ensures BuildRequest("test_access_token", TestTrip(route)(t)) == Some(TestRequest(route))
  {
  }

  /** Echoing the route back never strands a call: the answer has as many legs as the route. */
  lemma EchoResumes(route: DirectionsRoute)
    requires IsTestRoute(route)
    ensures forall t: nat :: Resumes("test_access_token", TestTrip(route), Echo(route), t)
  {
    forall t: nat
      ensures Resumes("test_access_token", TestTrip(route), Echo(route), t)
    {
      TestRouteBuildsRequest(route, t);
    }
  }

  /** A failing network never strands a call either. */
  lemma FailingResumes(route: DirectionsRoute, throwable: string)
    requires IsTestRoute(route)
    ensures forall t: nat :: Resumes("test_access_token", TestTrip(route), Failing(throwable), t)
  {
    forall t: nat
      ensures Resumes("test_access_token", TestTrip(route), Failing(throwable), t)
    {
      TestRouteBuildsRequest(route, t);
    }
  }

  /**
   * Interval 5 s, 10000 ms pass: `refresh` is called exactly twice, at 5000
   * and 10000 ms, each time with token "test_access_token", request UUID
   * "test_id" and leg index 0.
   */
  lemma RefreshesOverInterval(route: DirectionsRoute)
    requires IsTestRoute(route)
    ensures var (c, id) := Launched(5);
      var r := AdvanceTo(c, 10000, TestTrip(route), Echo(route));
      && Times(r.cycles) == [5000, 10000]
      && (forall k :: 0 <= k < |r.cycles| ==> r.cycles[k].Called? && r.cycles[k].request == TestRequest(route))
      && r.controller.loops[id].active
  {
    var (c, id) := Launched(5);
    EchoResumes(route);
    SteadyLoop(c, 10000, TestTrip(route), Echo(route));
    var r := AdvanceTo(c, 10000, TestTrip(route), Echo(route));
    forall k | 0 <= k < |r.cycles|
      ensures r.cycles[k].request == TestRequest(route)
    {
      TestRouteBuildsRequest(route, r.cycles[k].at);
    }
    assert Wakes(5000, 10000, 5000) == [5000] + Wakes(10000, 10000, 5000);
    assert Wakes(10000, 10000, 5000) == [10000] + Wakes(15000, 10000, 5000);
  }

  /** The first phase of `IntervalUpdateWhileRunning`: one call, at 1000 ms, and the next delay ends at 2000 ms. */
  lemma OneSecondPhase(route: DirectionsRoute)
    requires IsTestRoute(route)
    ensures var (c, id) := Launched(1);
      var r := AdvanceTo(c, 1100, TestTrip(route), Echo(route));
      && Times(r.cycles) == [1000] && (forall k :: 0 <= k < |r.cycles| ==> r.cycles[k].Called?)
      && r.controller.loops == [Loop(2000, true)] && r.controller.accessToken == "test_access_token"
  {
    var (c, id) := Launched(1);
    EchoResumes(route);
    SteadyLoop(c, 1100, TestTrip(route), Echo(route));
    WakesFirst(1000, 1100, 1000);
  }

  /** The second phase: with a 10 s interval and the delay ending at 2000 ms, calls at 2000 and 12000 ms. */
  lemma TenSecondPhase(route: DirectionsRoute, c: Controller)
    requires IsTestRoute(route) && c.accessToken == "test_access_token" && c.intervalSeconds == 10
    requires c.now <= 21200 && c.loops == [Loop(2000, true)]
    ensures var r := AdvanceTo(c, 21200, TestTrip(route), Echo(route));
      Times(r.cycles) == [2000, 12000] && forall k :: 0 <= k < |r.cycles| ==> r.cycles[k].Called?
  {
    EchoResumes(route);
    SteadyLoop(c, 21200, TestTrip(route), Echo(route));
    WakesFirst(2000, 21200, 10000);
    WakesFirst(12000, 21200, 10000);
  }

  /**
   * Interval 1 s for 1100 ms, then 10 s until 21200 ms: three calls, at
   * 1000, 2000 and 12000 ms. The delay running when the interval changes
   * keeps its one-second length.
   */
  lemma IntervalUpdateWhileRunning(route: DirectionsRoute)
    requires IsTestRoute(route)
    ensures var (c, id) := Launched(1);
      var r1 := AdvanceTo(c, 1100, TestTrip(route), Echo(route));
      var r2 := AdvanceTo(SetIntervalSeconds(r1.controller, 10), 21200, TestTrip(route), Echo(route));
      && Times(r1.cycles + r2.cycles) == [1000, 2000, 12000]
      && forall k :: 0 <= k < |r1.cycles + r2.cycles| ==> (r1.cycles + r2.cycles)[k].Called?
  {
    var (c, id) := Launched(1);
    var r1 := AdvanceTo(c, 1100, TestTrip(route), Echo(route));
    OneSecondPhase(route);
    var c2 := SetIntervalSeconds(r1.controller, 10);
    TenSecondPhase(route, c2);
    var r2 := AdvanceTo(c2, 21200, TestTrip(route), Echo(route));
    assert Times(r1.cycles + r2.cycles) == Times(r1.cycles) + Times(r2.cycles);
  }

  /**
   * Every call fails: each wake still calls `refresh`, the error is
   * swallowed without reaching the callback, and the loop keeps running.
   */
  lemma SurvivesApiFailure(route: DirectionsRoute)
    requires IsTestRoute(route)
    ensures var (c, id) := Launched(5);
      var r := AdvanceTo(c, 10000, TestTrip(route), Failing("Test exception"));
      && Times(r.cycles) == [5000, 10000]
      && (forall k :: 0 <= k < |r.cycles| ==>
            r.cycles[k].Called? && r.cycles[k].outcome.Threw? && Delivery(r.cycles[k]).None?)
      && r.controller.loops[id].active
  {
    var (c, id) := Launched(5);
    var trip := TestTrip(route);
    var respond := Failing("Test exception");
    FailingResumes(route, "Test exception");
    SteadyLoop(c, 10000, trip, respond);
    FailuresAreSwallowed(c, 10000, trip, respond);
    assert Wakes(5000, 10000, 5000) == [5000] + Wakes(10000, 10000, 5000);
    assert Wakes(10000, 10000, 5000) == [10000] + Wakes(15000, 10000, 5000);
  }

  /** Without a token, 10000 ms pass and the refresh API is never called. */
  lemma RequiresAccessToken(route: DirectionsRoute)
    ensures var (c, id) := Launched(5);
      var r := AdvanceTo(SetAccessToken(c, ""), 10000, TestTrip(route), Echo(route));
      forall k :: 0 <= k < |r.cycles| ==> r.cycles[k].Skipped?
  {
    var (c, id) := Launched(5);
    NoTokenNeverCalls(SetAccessToken(c, ""), 10000, TestTrip(route), Echo(route));
  }
}

=== FILE: wrappers.dfy ===
/** Kotlin's nullable values and thrown exceptions, as Dafny values. */
module Wrappers {

  /** A Kotlin `T?`: `None` stands for `null`. */
  datatype Option<+T> = None | Some(value: T)

  /** The result of a call that either returns a value or throws `error`. */
  datatype Result<+T, +E> = Ok(value: T) | Err(error: E)
}
